=== FILE: README.md ===
# wasm-game-of-life, modelled in Dafny

This project models Conway's Game of Life as the repository builds it. The engine is a
`Universe` in Rust: a `width x height` toroidal grid stored row-major in a fixed-size bitset.
It offers `tick`, `toggle_cell`, `spawn_glider`, `spawn_pulsar`, `kill_all`, `set_width`,
`set_height`, `set_cells`, `new` and the `cells()` snapshot. The page driver is in JavaScript.
It decodes the packed snapshot with `bitIsSet`/`getIndex` and draws the grid lines and the
cells in two passes. It maps canvas clicks to cells and runs a play/pause/reset loop on
animation frames, with a 100-sample frame-rate window.

Modules:

- `Life` (`universe.dfy`): the engine.
  - The bitset is a `seq<bool>` whose length is fixed when the universe is created.
  - `u32` arithmetic wraps modulo 2^32, as in a release build.
  - A `FixedBitSet::set`/`toggle` past the end panics; the model returns `None` there.
  - Indexing past the end reads `false`.
  - `Tick` is a method whose loops mirror the engine's. It is proved equal to the functional
    `Step`, in which every cell's next state depends on the old generation only.
- `LifeFacts` (`life_facts.dfy`): properties of the engine.
  - The neighbour count matches an independent toroidal definition with signed offsets.
  - The B3/S23 rule holds per cell.
  - Each edit has a frame condition: toggle flips one cell, and the stamps set exactly their
    footprint.
  - It also covers the seed pattern and the glider's edge behaviour.
- `Snapshot` (`snapshot.dfy`): the snapshot as bytes, least significant bit first. Decoding
  with the driver's `bitIsSet(getIndex(row, col), view)` gives back every cell.
- `Geometry` (`geometry.dfy`): cell rectangles on the canvas and the clamped pixel-to-cell
  mapping of the click handler.
- `Renderer` (`renderer.dfy`):
  - `drawCells` is modelled as the sequence of `fillRect` calls it issues and `drawGrid` as its
    lines.
  - Reference: a single pass that paints each cell in its own colour. The two passes are a
    permutation of it.
  - Decoding a universe's snapshot draws every cell exactly once in the colour of its state.
- `FrameWindow` (`fps.dfy`): the frame-rate sample window.
- `Driver` (`driver.dfy`): the event handlers as functions from a driver state to the next
  state plus the trace of effects they issue. The effects are engine calls, `drawGrid` and
  `drawCells`.
  - The state holds `animationId`, the set of frame callbacks the browser still holds, the
    button label and the frame window.
- `Wrappers`, `U32`, `Arith`: `Option`, 32-bit wrapping, and small arithmetic lemmas.

Three behaviours of the code are worth stating on their own:

- `play` (www/index.js:54-57) has no guard against being called while the loop is already
  playing. `Driver.DoublePlayOrphansAFrame` proves what a second call does: it schedules a
  second frame callback that `pause` does not cancel. None of the handlers calls `play` while
  playing, and `Driver.EventsKeepConsistent` proves that every handler keeps exactly one
  callback scheduled while playing and none while paused.
- The click handler forwards the click to the engine before it redraws
  (www/index.js:227-236). When that call panics, the exception leaves the handler and
  `drawGrid`/`drawCells` never run. On the page's 64 x 64 universe this happens for:
  - a shift-click on either of the last two rows (`Driver.ShiftClickNearBottomSkipsRedraw`,
    `Driver.PageShiftClickPanics`);
  - a ctrl-click on the last row (`Driver.CtrlClickOnLastRowSkipsRedraw`);
  - a ctrl-click on the first row, where `row - 1` wraps, or on cell `(1, 0)`, where
    `column - 1` wraps (`Driver.CtrlClickNearTopSkipsRedraw`, `Driver.PageCtrlClickAtOriginPanics`).
- `drawCells` views `width * height / 8` bytes, and that division truncates. When the grid is
  not a whole number of bytes, the cells of the trailing partial byte read as dead
  (`Snapshot.ViewTailReadsDead`). The page's 64 x 64 grid is a whole number of bytes.

## Model

| member | source | states |
|---|---|---|
| Life.SetAll | src/lib.rs:90-92 | Setting a list of bits succeeds exactly when every index is inside the bitset. It otherwise panics. On success the length is kept, and bit `i` is set iff it was set or `i` is listed. |
| Life.LiveNeighborCount | src/lib.rs:37-56 | The neighbour count never exceeds eight. |
| Life.Rule | src/lib.rs:147-155 | The five match arms amount to B3/S23. The next state is alive iff the cell is alive with 2 or 3 live neighbours, or dead with exactly 3. |
| Life.TickRow | src/lib.rs:142-157 | One pass over a row's columns moves the frontier from the row's start to the next row's start. Below the frontier the buffer holds the next generation; from the frontier on, the current one. |
| Life.Tick | src/lib.rs:138-161 | Writing into a clone row by row yields exactly the generation `Step(u)`. Each cell follows the rule applied to the old generation, and bits past the grid are unchanged. |
| Life.ToggleCell | src/lib.rs:75-79 | Toggling succeeds iff the wrapped index is inside the bitset. It otherwise panics. Dimensions and bitset length are kept. |
| Life.SpawnGlider | src/lib.rs:81-93 | A successful glider spawn keeps the dimensions. |
| Life.SpawnPulsar | src/lib.rs:95-101 | A successful pulsar spawn keeps the dimensions. |
| Life.SetCells | src/lib.rs:202-209 | A successful `set_cells` keeps the dimensions. |
| Life.KillAll | src/lib.rs:103-106 | Every bit of the bitset is cleared; dimensions and length are kept. |
| Life.ResetCells | src/lib.rs:66-73 | Every grid cell is cleared. Bits past the grid and the dimensions are kept. |
| Life.SetWidth | src/lib.rs:118-124 | The new width is in place, the height and bitset length are kept, and every cell of the new grid is dead. |
| Life.SetHeight | src/lib.rs:126-132 | The new height is in place, the width and bitset length are kept, and every cell of the new grid is dead. |
| Life.GetIndex | src/lib.rs:33-35 | The flat index `row * width + column` in wrapping 32-bit arithmetic. Its partners `LifeFacts.IndexInRange` and `LifeFacts.IndexInjective` show that it does not wrap inside the grid and that distinct grid cells get distinct indices. |
| Life.Step | src/lib.rs:138-161 | The next generation, each bit computed from the old generation only. `Life.Tick`'s in-place loops are proved equal to it; `LifeFacts.StepCell` gives its per-cell rule and `LifeFacts.StepFrame` what it keeps. |
| Life.New | src/lib.rs:163-189 | The seed universe. Its partner `LifeFacts.NewSeed` shows a 64 x 64 grid on 4096 bits holding exactly one glider in the top-left corner. |
| LifeFacts.IndexInRange | src/lib.rs:33-35 | Inside the grid the wrapping index does not wrap. It is below `width * height`, and division and remainder by the width recover row and column. |
| LifeFacts.IndexInjective | src/lib.rs:33-35 | Two grid cells share an index iff they are the same cell. |
| LifeFacts.AliveIsBit | src/lib.rs:33-35 | A grid cell is alive iff its row-major bit is set. |
| LifeFacts.NeighborCountIsToroidal | src/lib.rs:37-56 | On grids at least 2 x 2, the engine's unsigned-offset sum equals the number of live cells among the eight toroidal neighbours with signed offsets. The cell itself is never counted. |
| LifeFacts.DeadNeighbors | src/lib.rs:37-56 | With no live grid cell, every neighbour count is zero. |
| LifeFacts.StepCell | src/lib.rs:138-161 | After a step, a grid cell is alive iff it was alive with 2 or 3 live neighbours, or dead with exactly 3. |
| LifeFacts.StepCellToroidal | src/lib.rs:138-161 | The same rule holds with the independent toroidal neighbour count. |
| LifeFacts.StepFrame | src/lib.rs:138-161 | A step keeps the dimensions, the bitset length and every bit past the grid. |
| LifeFacts.StepKeepsDead | src/lib.rs:138-161 | An all-dead grid stays all-dead. |
| LifeFacts.ToggleFlipsOnlyTarget | src/lib.rs:75-79 | Toggling an in-grid cell succeeds and flips exactly that cell. Every other grid cell and every bit past the grid is unchanged. |
| LifeFacts.ToggleTwice | src/lib.rs:75-79 | Toggling the same cell twice restores the universe. |
| LifeFacts.StampFootprint | src/lib.rs:90-92 | Setting the indices of a list of in-grid cells cannot panic. It sets exactly the listed cells alive, kills none, and leaves the rest alone. |
| LifeFacts.GliderFootprint | src/lib.rs:81-93 | Away from the edges, `spawn_glider(row, col)` sets exactly the five glider cells alive and changes nothing else. The cells are `(row, col)`, `(row-1, col-1)`, `(row-1, col+1)`, `(row, col+1)` and `(row+1, col)`. |
| LifeFacts.GliderLeftEdgeWraps | src/lib.rs:86 | In column 0, `column - 1` wraps. The glider then sets the last cell of the row two above rather than the cell one row up on the torus. |
| LifeFacts.GliderRightEdgeWraps | src/lib.rs:87-88 | In the last column `column + 1` runs into the next row. The glider sets `(row, 0)` and `(row + 1, 0)` instead of the toroidal neighbours `(row - 1, 0)` and `(row, 0)`, together with its other three cells, and nothing else changes. |
| LifeFacts.GliderTopPanics | src/lib.rs:86 | On the first row `row - 1` wraps, and at `(1, 0)` `column - 1` wraps. Either way the `(row - 1, column - 1)` index lies just below 2^32, past a bitset of exactly `width * height` bits, so the spawn panics. |
| LifeFacts.GliderBottomPanics | src/lib.rs:89 | On the last row, the `row + 1` term lands past a bitset of exactly `width * height` bits, so the spawn panics. |
| LifeFacts.PulsarFootprint | src/lib.rs:96-101 | When three rows fit from `row` down, the pulsar sets exactly `(row, col)`, `(row+1, col)` and `(row+2, col)` alive. |
| LifeFacts.PulsarPastBottomPanics | src/lib.rs:96-101 | Anchored on one of the last two rows, the pulsar runs past a bitset of exactly `width * height` bits and panics. |
| LifeFacts.SetCellsFootprint | src/lib.rs:204-209 | Setting a list of in-grid cells succeeds and sets exactly those cells alive; nothing else changes. |
| LifeFacts.KillAllIdempotent | src/lib.rs:104-106 | Killing everything twice is killing once. |
| LifeFacts.NewSeed | src/lib.rs:163-189 | The new universe is 64 x 64 with a 4096-bit bitset. Its live cells are exactly `(0,3)`, `(1,1)`, `(1,3)`, `(2,2)` and `(2,3)`: a glider in the top-left corner. |
| Snapshot.Pack | src/lib.rs:134-136 | The packed snapshot has `ceil(bits / 8)` bytes. |
| Snapshot.GetCells | src/lib.rs:198-200 | `get_cells` exposes the same packed bytes. |
| Snapshot.BitIsSet | www/index.js:162-166 | The driver's bit test, with a byte past the array reading as clear. Its partners `Snapshot.BitIsSetReadsOneBit` and `Snapshot.PackRoundTrip` show that it reads one bit and inverts the packing. |
| Snapshot.JsGetIndex | www/index.js:139-141 | The driver's unwrapped row-major index. Its partner `Snapshot.JsIndexAgrees` shows it equals the engine's index on every grid cell. |
| Snapshot.BitIsSetReadsOneBit | www/index.js:162-166 | `bitIsSet(n, arr)` depends only on bit `n % 8` of byte `n / 8`. It is false when that byte is past the end of the array. |
| Snapshot.PackRoundTrip | www/index.js:162-166 | `bitIsSet` on the packed snapshot gives back every bit. Positions past the bitset read clear. |
| Snapshot.JsIndexAgrees | www/index.js:139-141 | The driver's unwrapped `getIndex` equals the engine's wrapping index on every grid cell. |
| Snapshot.View | www/index.js:171 | The driver's view has `width * height / 8` bytes, with truncating division. |
| Snapshot.ViewDecodes | www/index.js:168-171 | When the grid is a whole number of bytes, decoding the view at `getIndex(row, col)` gives the engine's state of that cell. |
| Snapshot.ViewTailReadsDead | www/index.js:171 | Otherwise the cells of the trailing partial byte decode as dead. |
| Geometry.CellRect | www/index.js:185-190 | Every cell rectangle is `CELL_SIZE` square. |
| Geometry.PixelToCell | www/index.js:224-225 | Any non-negative pixel, including one past the far edge, maps to a row and column inside the grid. |
| Geometry.PixelToCellClamp | www/index.js:224-225 | Inside the canvas the clamp changes nothing. At or past the start of the last cell it picks the last row or column. |
| Geometry.CellOfBand | www/index.js:224-225 | Every coordinate in `[k * (CELL_SIZE + 1), (k + 1) * (CELL_SIZE + 1))` has `Math.floor(p / (CELL_SIZE + 1)) == k`. |
| Geometry.CellRectOnCanvas | www/index.js:15-16 | Every cell's rectangle lies within a canvas of `(CELL_SIZE + 1) * n + 1` pixels. |
| Geometry.CellRectMapsBack | www/index.js:224-225 | Every pixel of a cell's rectangle maps back to that cell. |
| Geometry.CellRectsDisjoint | www/index.js:185-190 | Rectangles of distinct cells do not overlap. |
| Renderer.RowPass | www/index.js:179-191 | The inner loop issues, in column order, one fill for each cell of the row that is in the pass's state. |
| Renderer.CellPass | www/index.js:178-192 | One pass issues the row-major fills of the cells in the pass's state. |
| Renderer.DrawCells | www/index.js:168-213 | `drawCells` issues the live pass and then the dead pass. |
| Renderer.EachCellFilledOnce | www/index.js:168-213 | Across both passes every grid cell is filled exactly once, in the colour of its decoded state. Nothing outside the grid is filled. |
| Renderer.TwoPassMatchesSinglePass | www/index.js:175-210 | The two passes are a permutation of the reference single pass, which paints each cell in its own colour. Together with `Geometry.CellRectsDisjoint`, the picture follows; that combination is not itself proved. |
| Renderer.DrawCellsShowsUniverse | www/index.js:168-213 | When the grid is a whole number of bytes, drawing from a universe's snapshot view fills each grid cell once, in the colour of its state in the engine. |
| Renderer.ToggleThenDraw | www/index.js:168-213 | Take the page's all-dead 64 x 64 grid, toggle cell `(5, 5)` and draw. There is one alive fill, at `(5, 5)` with origin `(31, 31)`, and one dead fill for every other cell. |
| Renderer.DrawGrid | www/index.js:143-160 | There are `width + 1` vertical and `height + 1` horizontal lines spanning the canvas. Each line is at the x (or y) where its column's (or row's) fill rectangles start, and the last runs along the far edge. |
| FrameWindow.Push | www/index.js:89-93 | From a window within capacity, a push yields the latest 100 samples of the window plus the new one, in arrival order. |
| FrameWindow.ReplayKeepsLatest | www/index.js:89-93 | After any sequence of pushes the window holds exactly the most recent 100 samples, in arrival order. |
| FrameWindow.ReplayBounded | www/index.js:89-93 | The window never holds more than 100 samples. |
| Driver.Ticks | www/index.js:126-129 | The batch is exactly `cycles` calls of `tick`. |
| Driver.RenderLoop | www/index.js:121-133 | A frame pushes the sample, ticks `cycles` times, then draws the grid and the cells. It requests a fresh frame and records that frame's handle. |
| Driver.IsPaused | www/index.js:135-137 | The driver is paused exactly when no animation frame is recorded. `Driver.PlayPauseClick` flips it and `Driver.Consistent` ties it to the button label and the scheduled callbacks. |
| Driver.Play | www/index.js:54-57 | After `play` the driver is playing, with the pause label. |
| Driver.Pause | www/index.js:59-63 | After `pause` the driver is paused, with the play label. Only the recorded frame is cancelled, and nothing is drawn. |
| Driver.ResetClick | www/index.js:46-50 | Reset always ends playing. It calls the engine's `reset`, then runs one frame. |
| Driver.PlayPauseClick | www/index.js:65-71 | The button flips between paused and playing. |
| Driver.KillClick | www/index.js:36-38 | The kill button only calls `kill_all`. The driver state is unchanged and nothing is redrawn. |
| Driver.FrameFires | www/index.js:132 | A cancelled or already-run callback does nothing; a pending one runs one frame. |
| Driver.CanvasClick | www/index.js:215-237 | A click issues one cell call on an in-range row and column. It then issues `drawGrid` and `drawCells` exactly when the engine call succeeds; a panicking call ends the handler before the redraw. |
| Driver.Start | www/index.js:239-242 | Start-up draws once, then plays: the driver ends playing and consistent. |
| Driver.EventsKeepConsistent | www/index.js:46-71 | Every handler keeps this invariant: exactly the recorded frame is scheduled while playing and none while paused. The label matches the state and the frame window stays within capacity. |
| Driver.PauseKeepsConsistent | www/index.js:59-63 | Pausing a consistent driver leaves no callback scheduled. |
| Driver.PauseWhenPaused | www/index.js:59-63 | Pausing while paused changes nothing. |
| Driver.PlayFromPausedKeepsConsistent | www/index.js:54-57 | Playing from paused schedules exactly one callback. |
| Driver.NoFrameAfterPause | www/index.js:59-63 | After `pause`, every frame callback is a no-op until the next `play`. |
| Driver.DoublePlayOrphansAFrame | www/index.js:54-63 | Calling `play` while playing leaves two callbacks scheduled. A later `pause` cancels only one, so the orphan still runs a frame and restarts the loop. |
| Driver.ButtonTwiceKeepsMode | www/index.js:65-71 | Two clicks of the play/pause button return to the same mode. |
| Driver.FrameBatch | www/index.js:121-133 | A playing frame issues exactly `cycles` ticks before the repaint. The sample enters the window and exactly one next frame is scheduled. |
| Driver.FramesBounded | www/index.js:122 | One frame keeps the window within capacity and ends it with the new sample. Over a whole run of frames this is `FrameWindow.ReplayKeepsLatest`. |
| Driver.ClickDispatch | www/index.js:227-233 | Shift spawns a pulsar, else ctrl spawns a glider, else the click toggles. Each acts on the clamped clicked cell. |
| Driver.ClickAtOrigin | www/index.js:224-232 | A plain click at pixel `(0, 0)` toggles cell `(0, 0)`. |
| Driver.ClickHitsCell | www/index.js:224-225 | A click inside a cell's rectangle acts on that cell. |
| Driver.ClickToggleFlipsCell | www/index.js:224-236 | A plain click on a universe that fits its bitset flips exactly the clicked cell of the engine's grid, and the grid and cells are redrawn. |
| Driver.ShiftClickNearBottomSkipsRedraw | www/index.js:227-236 | On a bitset of exactly `width * height` bits, a shift-click clamped to one of the last two rows spawns a pulsar that panics, and nothing is redrawn. |
| Driver.CtrlClickOnLastRowSkipsRedraw | www/index.js:229-236 | On such a bitset, a ctrl-click clamped to the last row spawns a glider that panics, and nothing is redrawn. |
| Driver.CtrlClickNearTopSkipsRedraw | www/index.js:229-236 | On such a bitset, a ctrl-click clamped to the first row, or to cell `(1, 0)`, spawns a glider that panics, and nothing is redrawn. |
| Driver.PageCtrlClickAtOriginPanics | www/index.js:224-236 | On the page's 64 x 64 universe, a ctrl-click at pixel `(0, 0)` calls `spawn_glider(0, 0)`, which panics, so the only effect is that call. |
| Driver.PageShiftClickPanics | www/index.js:224-236 | On the page's 64 x 64 universe, a shift-click at pixel `(0, 372)` calls `spawn_pulsar(62, 0)`, which panics, so the only effect is that call. |

## Left out

- `Universe::reset` draws random bits (`Math.random`). It appears only as the `Engine(Reset)` effect of the reset handler.
- `Display`/`render` (the text rendering), `canvas.textContent = universe.render()`, and the `Timer`, `now` and `log!` helpers: output and logging only.
- The `cells()` raw address into wasm memory and `memory.buffer`: the snapshot is modelled as the bitset's bytes in little-endian order, not as an address.
- `width()`/`height()`: field accessors of the `Universe` datatype.
- The frame-rate statistics are not modelled: `performance.now()`, `1000 / delta`, and the min, max and mean. Samples are abstract `real` values; only the window is modelled.
- The DOM and the canvas context are not modelled. Out of scope:
  - `fillStyle`, `beginPath`, `stroke`
  - the `getBoundingClientRect` scaling (clicks are taken in canvas pixels)
  - `updateOuput` and the render-cycles input, whose value is taken as a natural number
  - the button's initial label, which is set in a page file outside this model
- The browser's frame scheduling: the callbacks appear only as handles in the driver state.
- Life.Tick: requires `Fits(u)`, so the grid must lie inside the bitset. When `set_width`/`set_height` grow the grid past the bitset, the engine panics; that case is excluded rather than modelled.
- Life.ResetCells: requires `Fits(u)`, for the same reason as `Tick`.
- Life.SetWidth: requires that the new grid fits the bitset. A larger grid makes the engine's `reset_cells` panic; that is not modelled.
- Life.SetHeight: requires that the new grid fits the bitset, as for `SetWidth`.
- LifeFacts.NeighborCountIsToroidal: stated only for grids at least 2 x 2. On a grid one cell wide or high, the engine's count includes the cell itself: on a one-wide grid the `(0, 1)` offset wraps back onto the centre.
- LifeFacts.GliderFootprint: covers anchors at least one cell from every edge. The edge cases are separate lemmas: the left edge (`GliderLeftEdgeWraps`, grids at least 3 wide), the right edge (`GliderRightEdgeWraps`), and the first row with cell `(1, 0)` (`GliderTopPanics`). The last row is `GliderBottomPanics`. The first- and last-row lemmas assume a bitset of exactly `width * height` bits; with a larger bitset the wrapped writes may land in the spare bits, and that case is not characterised.
- Snapshot.ViewDecodes: requires `width * height` to be a multiple of 8; the other case is `ViewTailReadsDead`.
- Life.SetAll: a panic is modelled as a bare `None`. The bits that `FixedBitSet::set` already wrote before the failing index are not kept. For example, `spawn_glider(63, c)` on the page's universe writes up to four of its five cells before it panics, and `spawn_pulsar(62, c)` writes two of its three.
- Driver.CanvasClick: after an engine panic the model keeps neither the partly written bitset nor any engine state. What later engine calls do after the WebAssembly trap depends on the generated bindings, which are not part of this model. The driver model carries on with the same driver state, and `Driver.FrameFires` and `Driver.EventsKeepConsistent` keep describing full frames.
- Driver.CanvasClick: requires non-negative canvas coordinates, since a click on the canvas never yields a negative one. It takes the grid's dimensions from the universe; the page reads them into `width`/`height` once at start-up and never resizes. The edited universe is given by `Driver.CellCallResult`, not carried in the driver state.
- Renderer.TwoPassMatchesSinglePass: proves that the fill sequences are permutations of each other. That the pixels come out the same follows from `Geometry.CellRectsDisjoint`, but no lemma combines the two.

=== FILE: arith.dfy ===
/** Facts about row-major flattening `row * width + column` shared by the engine and the driver. */
module Arith {
  /** The smaller of two integers. */
  function Min(a: int, b: int): (m: int)
    ensures m <= a && m <= b && (m == a || m == b)
  {
    if a <= b then a else b
  }

  lemma MulMonotone(a: nat, b: nat, w: nat)
    requires a <= b
    ensures a * w <= b * w
  {
    assert b * w == a * w + (b - a) * w;
  }

  /** A cell inside a `width x height` grid has a flat index below `width * height`. */
  lemma FlatBound(row: nat, col: nat, width: nat, height: nat)
    requires row < height && col < width
    ensures row * width + col < width * height
  {
    MulMonotone(row + 1, height, width);
  }

  /** Dividing a flat index by the width recovers row and column. */
  lemma FlatDivMod(row: nat, col: nat, width: nat)
    requires col < width
    ensures (row * width + col) / width == row
    ensures (row * width + col) % width == col
  {
    var k := row * width + col;
    var q, r := k / width, k % width;
    assert k == q * width + r;
    if q < row {
      MulMonotone(q + 1, row, width);
      assert false;
    } else if q > row {
      MulMonotone(row + 1, q, width);
      assert false;
    }
  }

  /** Row-major flattening is injective on in-range columns. */
  lemma FlatInjective(r1: nat, c1: nat, r2: nat, c2: nat, width: nat)
    requires c1 < width && c2 < width
    requires r1 * width + c1 == r2 * width + c2
    ensures r1 == r2 && c1 == c2
  {
    FlatDivMod(r1, c1, width);
    FlatDivMod(r2, c2, width);
  }

  /** Every index below `width * height` is the flattening of an in-range cell. */
  lemma Unflatten(k: nat, width: nat, height: nat)
    requires k < width * height
    ensures width > 0 && height > 0
    ensures 0 <= k / width < height && 0 <= k % width < width
    ensures (k / width) * width + k % width == k
  {
    if k / width >= height {
      MulMonotone(height, k / width, width);
    }
  }

  /** Consecutive rows are `width` apart. */
  lemma NextRow(row: nat, width: nat)
    ensures row * width + width == (row + 1) * width
  {
  }

  /** Two rows of at least two cells need at least twice as many cells as one row. */
  lemma HalfBound(width: nat, height: nat, m: nat)
    requires width >= 2 && width * height <= m
    ensures 2 * height <= m
  {
    MulMonotone(2, width, height);
  }

  /** Reducing a value in `[0, 2 * m)` modulo `m` subtracts `m` at most once. */
  lemma ModOnce(x: int, m: int)
    requires 0 < m && 0 <= x < 2 * m
    ensures x % m == if x < m then x else x - m
  {
    var q, r := x / m, x % m;
    assert x == q * m + r && 0 <= r < m;
    if q < 0 || q > 1 {
      if q < 0 { MulMonotoneInt(q, -1, m); } else { MulMonotoneInt(2, q, m); }
      assert false;
    }
  }

  /** Adding a multiple of `m` does not change a remainder already in `[0, m)`. */
  lemma ModMultiple(q: int, r: int, m: int)
    requires 0 < m && 0 <= r < m
    ensures (m * q + r) % m == r
  {
    var x := m * q + r;
    var d := q - x / m;
    assert m * d == x % m - r;
    if d >= 1 {
      MulMonotoneInt(1, d, m);
      assert false;
    } else if d <= -1 {
      MulMonotoneInt(d, -1, m);
      assert false;
    }
  }

  /** The Euclidean remainder of `-1` is `m - 1`. */
  lemma ModMinusOne(m: int)
    requires 0 < m
    ensures -1 % m == m - 1
  {
    var q, r := -1 / m, -1 % m;
    assert -1 == q * m + r && 0 <= r < m;
    if q >= 0 {
      MulMonotoneInt(0, q, m);
      assert false;
    } else if q < -1 {
      MulMonotoneInt(q, -2, m);
      assert false;
    }
  }

  lemma MulMonotoneInt(a: int, b: int, m: int)
    requires a <= b && 0 <= m
    ensures a * m <= b * m
  {
    assert b * m == a * m + (b - a) * m;
  }
}

=== FILE: driver.dfy ===
/**
 The page driver's control logic: the play/pause/reset state machine keyed on the pending
 animation-frame handle, the per-frame batch of ticks, and the click dispatch. The engine,
 the canvas and the browser's frame scheduler are outside the model: every event yields the
 next driver state and the trace of effects it issues, in order.
 */
module Driver {
  import opened Wrappers
  import FrameWindow
  import Geometry
  import Life
  import LifeFacts
  import U32

  /** The play/pause button's text: "▶" while paused, "⏸" while playing. */
  datatype Label = PlayIcon | PauseIcon

  /** A call into the engine. */
  datatype EngineCall =
    | Tick
    | ToggleCell(row: nat, col: nat)
    | SpawnPulsar(row: nat, col: nat)
    | SpawnGlider(row: nat, col: nat)
    | KillAll
    | Reset
  {
    /** The calls that act on one clicked cell. */
    predicate CellCall() {
      ToggleCell? || SpawnPulsar? || SpawnGlider?
    }
  }

  /** What an event does outside the driver's own state. */
  datatype Effect = Engine(call: EngineCall) | DrawGrid | DrawCells

  /**
   The driver's state: the frame-rate window, `animationId` (`None` is `null`), the frame
   callbacks the browser still holds, the next handle `requestAnimationFrame` returns, and the
   button label.
   */
  datatype State = State(frames: seq<real>, animationId: Option<nat>, pending: set<nat>, nextHandle: nat, button: Label)

  /** The state after an event and the effects the event issued. */
  datatype Outcome = Outcome(state: State, effects: seq<Effect>)

  /** `isPaused()`: no animation frame is recorded. */
  predicate IsPaused(s: State) {
    s.animationId.None?
  }

  /**
   What the event handlers keep true: the only scheduled callback is the recorded one, the
   label shows the state, handles are fresh, and the frame window is within capacity.
   */
  predicate Consistent(s: State) {
    && (if s.animationId.Some? then s.pending == {s.animationId.value} else s.pending == {})
    && (s.button == PlayIcon <==> IsPaused(s))
    && (forall h :: h in s.pending ==> h < s.nextHandle)
    && |s.frames| <= FrameWindow.CAPACITY
  }

  /** The page's state before its start-up code runs. */
  const Initial: State := State([], None, {}, 0, PlayIcon)

  /** `cycles` calls of `universe.tick()`. */
  function Ticks(cycles: nat): (r: seq<Effect>)
    ensures |r| == cycles && forall i :: 0 <= i < cycles ==> r[i] == Engine(Tick)
  {
    if cycles == 0 then [] else Ticks(cycles - 1) + [Engine(Tick)]
  }

  /**
   `renderLoop`: record the frame sample, tick `cycles` times, redraw, and ask for the next
   frame, whose handle becomes `animationId`.
   */
  function RenderLoop(s: State, sample: real, cycles: nat): (r: Outcome)
    ensures r.effects == Ticks(cycles) + [DrawGrid, DrawCells]
    ensures r.state.animationId == Some(s.nextHandle) && r.state.nextHandle == s.nextHandle + 1
    ensures r.state.pending == s.pending + {s.nextHandle}
    ensures r.state.frames == FrameWindow.Push(s.frames, sample) && r.state.button == s.button
  {
    var handle := s.nextHandle;
    var next := s.(frames := FrameWindow.Push(s.frames, sample),
                   animationId := Some(handle),
                   pending := s.pending + {handle},
                   nextHandle := handle + 1);
    Outcome(next, Ticks(cycles) + [DrawGrid, DrawCells])
  }

  /** `play`: show the pause label and run one frame of the render loop at once. */
  function Play(s: State, sample: real, cycles: nat): (r: Outcome)
    ensures !IsPaused(r.state) && r.state.button == PauseIcon
  {
    RenderLoop(s.(button := PauseIcon), sample, cycles)
  }

  /** `pause`: show the play label, cancel the recorded frame, forget it. */
  function Pause(s: State): (r: Outcome)
    ensures IsPaused(r.state) && r.state.button == PlayIcon && r.effects == []
    ensures s.animationId.Some? ==> r.state.pending == s.pending - {s.animationId.value}
    ensures s.animationId.None? ==> r.state.pending == s.pending
  {
    var cancelled := if s.animationId.Some? then s.pending - {s.animationId.value} else s.pending;
    Outcome(s.(button := PlayIcon, animationId := None, pending := cancelled), [])
  }

  /** `reset`: pause, re-randomise the universe, play. */
  function ResetClick(s: State, sample: real, cycles: nat): (r: Outcome)
    ensures !IsPaused(r.state)
    ensures r.effects == [Engine(Reset)] + Ticks(cycles) + [DrawGrid, DrawCells]
  {
    var paused := Pause(s);
    var played := Play(paused.state, sample, cycles);
    Outcome(played.state, paused.effects + [Engine(Reset)] + played.effects)
  }

  /** The play/pause button: play when paused, pause otherwise. */
  function PlayPauseClick(s: State, sample: real, cycles: nat): (r: Outcome)
    ensures IsPaused(r.state) <==> !IsPaused(s)
  {
    if IsPaused(s) then Play(s, sample, cycles) else Pause(s)
  }

  /** The kill button: clear the universe. Nothing is redrawn until the next frame. */
  function KillClick(s: State): (r: Outcome)
    ensures r.state == s && r.effects == [Engine(KillAll)]
  {
    Outcome(s, [Engine(KillAll)])
  }

  /**
   The browser runs frame callback `h`: a cancelled or already-run handle does nothing;
   a pending one is consumed and runs `renderLoop`.
   */
  function FrameFires(s: State, h: nat, sample: real, cycles: nat): (r: Outcome)
    ensures h !in s.pending ==> r == Outcome(s, [])
    ensures h in s.pending ==> r.effects == Ticks(cycles) + [DrawGrid, DrawCells]
  {
    if h in s.pending then RenderLoop(s.(pending := s.pending - {h}), sample, cycles)
    else Outcome(s, [])
  }

  /**
   The engine's answer to the call a click forwards: the edited universe, or `None` when the
   bitset write panics.
   */
  function CellCallResult(u: Life.Universe, call: EngineCall): Option<Life.Universe>
    requires call.CellCall() && call.row < u.height && call.col < u.width
  {
    if call.ToggleCell? then Life.ToggleCell(u, call.row, call.col)
    else if call.SpawnPulsar? then Life.SpawnPulsar(u, call.row, call.col)
    else Life.SpawnGlider(u, call.row, call.col)
  }

  /**
   The canvas click handler on canvas-space pixel `(px, py)` over universe `u`: the clamped
   cell under the pixel gets a pulsar with shift, else a glider with ctrl, else a toggle; then
   a redraw. When the engine call panics, the exception leaves the handler before the redraw.
   */
  function CanvasClick(s: State, u: Life.Universe, px: real, py: real, shift: bool, ctrl: bool): (r: Outcome)
    requires 0.0 <= px && 0.0 <= py && 0 < u.width && 0 < u.height
    ensures r.state == s && 1 <= |r.effects| && r.effects[0].Engine?
    ensures var call := r.effects[0].call;
      && call.CellCall() && call.row < u.height && call.col < u.width
      && r.effects[1..] == if CellCallResult(u, call).Some? then [DrawGrid, DrawCells] else []
  {
    var (row, col) := Geometry.PixelToCell(px, py, u.width, u.height);
    var call :=
      if shift then SpawnPulsar(row, col)
      else if ctrl then SpawnGlider(row, col)
      else ToggleCell(row, col);
    if CellCallResult(u, call).Some? then Outcome(s, [Engine(call), DrawGrid, DrawCells])
    else Outcome(s, [Engine(call)])
  }

  /** The page's start-up code: draw the grid and the cells, then play. */
  function Start(sample: real, cycles: nat): (r: Outcome)
    ensures Consistent(r.state) && !IsPaused(r.state)
    ensures r.effects == [DrawGrid, DrawCells] + Ticks(cycles) + [DrawGrid, DrawCells]
  {
    var played := Play(Initial, sample, cycles);
    Outcome(played.state, [DrawGrid, DrawCells] + played.effects)
  }

  // ---------------------------------------------------------------------------------
  // The state machine.

  /** Every user-visible event keeps the driver consistent. */
  lemma EventsKeepConsistent(s: State, h: nat, sample: real, cycles: nat, u: Life.Universe,
                             px: real, py: real, shift: bool, ctrl: bool)
    requires Consistent(s)
    ensures Consistent(PlayPauseClick(s, sample, cycles).state)
    ensures Consistent(ResetClick(s, sample, cycles).state)
    ensures Consistent(KillClick(s).state)
    ensures Consistent(FrameFires(s, h, sample, cycles).state)
    ensures 0.0 <= px && 0.0 <= py && 0 < u.width && 0 < u.height ==>
      Consistent(CanvasClick(s, u, px, py, shift, ctrl).state)
  {
    PauseKeepsConsistent(s);
    if IsPaused(s) {
      PlayFromPausedKeepsConsistent(s, sample, cycles);
    }
    PlayFromPausedKeepsConsistent(Pause(s).state, sample, cycles);
    if h in s.pending {
      var consumed := s.(pending := s.pending - {h});
      assert consumed.pending == {};
      assert Consistent(RenderLoop(consumed, sample, cycles).state);
    }
  }

  lemma PauseKeepsConsistent(s: State)
    requires Consistent(s)
    ensures Consistent(Pause(s).state) && Pause(s).state.pending == {}
  {
  }

  /** Pausing an already paused driver changes nothing and issues nothing. */
  lemma PauseWhenPaused(s: State)
    requires Consistent(s) && IsPaused(s)
    ensures Pause(s) == Outcome(s, [])
  {
  }

  /** Playing from a paused state schedules exactly one callback. */
  lemma PlayFromPausedKeepsConsistent(s: State, sample: real, cycles: nat)
    requires Consistent(s) && IsPaused(s)
    ensures Consistent(Play(s, sample, cycles).state)
    ensures Play(s, sample, cycles).state.pending == {s.nextHandle}
  {
  }

  /** Once paused, no scheduled callback is left: every later frame is a no-op until play. */
  lemma NoFrameAfterPause(s: State, h: nat, sample: real, cycles: nat)
    requires Consistent(s)
    ensures FrameFires(Pause(s).state, h, sample, cycles) == Outcome(Pause(s).state, [])
  {
    PauseKeepsConsistent(s);
  }

  /**
   `play` has no guard: called while playing it schedules a second callback, and a later
   `pause` cancels only the recorded one. The orphan then runs a frame while the driver
   reads as paused, and leaves it playing. The handlers never call `play` while playing.
   */
  lemma DoublePlayOrphansAFrame(s: State, sample: real, cycles: nat)
    requires Consistent(s) && !IsPaused(s)
    ensures var twice := Play(s, sample, cycles).state;
      && twice.pending == {s.animationId.value, s.nextHandle}
      && !Consistent(twice)
    ensures var paused := Pause(Play(s, sample, cycles).state).state;
      && IsPaused(paused)
      && s.animationId.value in paused.pending
      && !IsPaused(FrameFires(paused, s.animationId.value, sample, cycles).state)
  {
    var twice := Play(s, sample, cycles).state;
    assert s.animationId.value != s.nextHandle;
    assert twice.pending != {twice.animationId.value};
  }

  /** The button alternates: two clicks from a consistent state return to the same mode. */
  lemma ButtonTwiceKeepsMode(s: State, sample: real, cycles: nat)
    requires Consistent(s)
    ensures IsPaused(PlayPauseClick(PlayPauseClick(s, sample, cycles).state, sample, cycles).state) == IsPaused(s)
  {
  }

  /**
   One frame of a playing driver: exactly `cycles` ticks, then the grid and the cells are
   redrawn, the sample enters the window, and the next frame is the only one scheduled.
   */
  lemma FrameBatch(s: State, sample: real, cycles: nat)
    requires Consistent(s) && !IsPaused(s)
    ensures var r := FrameFires(s, s.animationId.value, sample, cycles);
      && |r.effects| == cycles + 2
      && (forall i :: 0 <= i < cycles ==> r.effects[i] == Engine(Tick))
      && r.effects[cycles..] == [DrawGrid, DrawCells]
      && r.state.frames == FrameWindow.Push(s.frames, sample)
      && r.state.pending == {r.state.animationId.value}
  {
  }

  /** One frame keeps the frame window within capacity and ends it with the new sample. */
  lemma FramesBounded(s: State, sample: real, cycles: nat)
    requires |s.frames| <= FrameWindow.CAPACITY
    ensures |RenderLoop(s, sample, cycles).state.frames| <= FrameWindow.CAPACITY
    ensures RenderLoop(s, sample, cycles).state.frames[|RenderLoop(s, sample, cycles).state.frames| - 1] == sample
  {
  }

  // ---------------------------------------------------------------------------------
  // Clicks.

  /** Shift takes precedence over ctrl; without either the click toggles. Always the clicked cell. */
  lemma ClickDispatch(s: State, u: Life.Universe, px: real, py: real, shift: bool, ctrl: bool)
    requires 0.0 <= px && 0.0 <= py && 0 < u.width && 0 < u.height
    ensures var call := CanvasClick(s, u, px, py, shift, ctrl).effects[0].call;
      var (row, col) := Geometry.PixelToCell(px, py, u.width, u.height);
      && (shift ==> call == SpawnPulsar(row, col))
      && (!shift && ctrl ==> call == SpawnGlider(row, col))
      && (!shift && !ctrl ==> call == ToggleCell(row, col))
  {
  }

  /** A plain click on the canvas origin toggles cell `(0, 0)`. */
  lemma ClickAtOrigin(s: State, u: Life.Universe)
    requires 0 < u.width && 0 < u.height
    ensures CanvasClick(s, u, 0.0, 0.0, false, false).effects[0] == Engine(ToggleCell(0, 0))
  {
    assert Geometry.CellOf(0.0) == 0;
  }

  /** A click inside a cell's fill rectangle acts on that cell. */
  lemma ClickHitsCell(s: State, u: Life.Universe, row: nat, col: nat, px: real, py: real, shift: bool, ctrl: bool)
    requires row < u.height && col < u.width && Geometry.CellRect(row, col).Contains(px, py)
    ensures 0.0 <= px && 0.0 <= py
    ensures var call := CanvasClick(s, u, px, py, shift, ctrl).effects[0].call;
      call.row == row && call.col == col
  {
    Geometry.CellRectMapsBack(row, col, u.width, u.height, px, py);
  }

  /**
   A plain click on a universe that fits its bitset flips exactly the clicked cell, and the
   grid and the cells are redrawn.
   */
  lemma ClickToggleFlipsCell(s: State, u: Life.Universe, px: real, py: real)
    requires Life.Fits(u) && 0 < u.width && 0 < u.height && 0.0 <= px && 0.0 <= py
    ensures var r := CanvasClick(s, u, px, py, false, false);
      var call := r.effects[0].call;
      && call.ToggleCell?
      && r.effects[1..] == [DrawGrid, DrawCells]
      && Life.ToggleCell(u, call.row, call.col).Some?
      && forall r: U32.u32, c: U32.u32 :: Life.InGrid(u, r, c) ==>
           (Life.Alive(Life.ToggleCell(u, call.row, call.col).value, r, c) <==> (Life.Alive(u, r, c) != (r == call.row && c == call.col)))
  {
    var call := CanvasClick(s, u, px, py, false, false).effects[0].call;
    LifeFacts.ToggleFlipsOnlyTarget(u, call.row, call.col);
  }

  /**
   On a bitset of exactly `width * height` bits, a shift-click whose clamped row is one of the
   last two anchors a pulsar that runs past the bitset: the engine panics and nothing is redrawn.
   */
  lemma ShiftClickNearBottomSkipsRedraw(s: State, u: Life.Universe, px: real, py: real)
    requires 0.0 <= px && 0.0 <= py && 0 < u.width && 0 < u.height
    requires |u.cells| == u.width * u.height && u.width * (u.height + 1) <= U32.MODULUS
    requires Geometry.PixelToCell(px, py, u.width, u.height).0 + 2 >= u.height
    ensures var (row, col) := Geometry.PixelToCell(px, py, u.width, u.height);
      CanvasClick(s, u, px, py, true, false).effects == [Engine(SpawnPulsar(row, col))]
  {
    var (row, col) := Geometry.PixelToCell(px, py, u.width, u.height);
    LifeFacts.PulsarPastBottomPanics(u, row, col);
  }

  /**
   Likewise a ctrl-click on the last row anchors a glider whose `row + 1` cell is past the
   bitset: the engine panics and nothing is redrawn.
   */
  lemma CtrlClickOnLastRowSkipsRedraw(s: State, u: Life.Universe, px: real, py: real)
    requires 0.0 <= px && 0.0 <= py && 0 < u.width && 0 < u.height
    requires |u.cells| == u.width * u.height && u.width * (u.height + 1) <= U32.MODULUS
    requires Geometry.PixelToCell(px, py, u.width, u.height).0 == u.height - 1
    ensures var (row, col) := Geometry.PixelToCell(px, py, u.width, u.height);
      CanvasClick(s, u, px, py, false, true).effects == [Engine(SpawnGlider(row, col))]
  {
    var (row, col) := Geometry.PixelToCell(px, py, u.width, u.height);
    LifeFacts.GliderBottomPanics(u, col);
  }

  /**
   A ctrl-click clamped to the first row, or to cell `(1, 0)`, anchors a glider whose wrapped
   `row - 1` or `column - 1` index is past the bitset: the engine panics and nothing is redrawn.
   */
  lemma CtrlClickNearTopSkipsRedraw(s: State, u: Life.Universe, px: real, py: real)
    requires 0.0 <= px && 0.0 <= py && 0 < u.width && 0 < u.height
    requires |u.cells| == u.width * u.height && |u.cells| + u.width < U32.MODULUS
    requires var (row, col) := Geometry.PixelToCell(px, py, u.width, u.height);
      row == 0 || (row == 1 && col == 0)
    ensures var (row, col) := Geometry.PixelToCell(px, py, u.width, u.height);
      CanvasClick(s, u, px, py, false, true).effects == [Engine(SpawnGlider(row, col))]
  {
    var (row, col) := Geometry.PixelToCell(px, py, u.width, u.height);
    LifeFacts.GliderTopPanics(u, row, col);
  }

  /** On the page's universe, a ctrl-click on the canvas origin anchors a glider at `(0, 0)` and panics. */
  lemma PageCtrlClickAtOriginPanics(s: State)
    ensures CanvasClick(s, Life.New(), 0.0, 0.0, false, true).effects == [Engine(SpawnGlider(0, 0))]
  {
    var u := Life.New();
    LifeFacts.NewSeed();
    assert Geometry.CellOf(0.0) == 0;
    CtrlClickNearTopSkipsRedraw(s, u, 0.0, 0.0);
  }

  /** On the page's universe, a shift-click at pixel `(0, 372)` lands on row 62 and panics. */
  lemma PageShiftClickPanics(s: State)
    ensures CanvasClick(s, Life.New(), 0.0, 372.0, true, false).effects == [Engine(SpawnPulsar(62, 0))]
  {
    var u := Life.New();
    LifeFacts.NewSeed();
    Geometry.CellOfBand(372.0, 62);
    assert Geometry.PixelToCell(0.0, 372.0, u.width, u.height) == (62, 0);
    ShiftClickNearBottomSkipsRedraw(s, u, 0.0, 372.0);
  }
}

=== FILE: fps.dfy ===
/**
 The frame-rate widget's window of samples: each render pushes the newest sample and, once
 more than `CAPACITY` are held, drops the oldest one. Samples are abstract; the timing and
 the statistics computed over them are not modelled.
 */
module FrameWindow {
  import Arith

  /** At most this many samples are kept. */
  const CAPACITY: nat := 100

  /** The samples `s` ends with, at most `n` of them. */
  function Latest<T>(s: seq<T>, n: nat): (r: seq<T>)
    ensures |r| == Arith.Min(|s|, n)
  {
    s[|s| - Arith.Min(|s|, n)..]
  }

  /**
   `frames.push(sample)`, then one `frames.shift()` when the window holds more than
   `CAPACITY` samples. From a window within capacity the result is again within capacity,
   ends with the new sample, and keeps the rest in arrival order.
   */
  function Push<T>(frames: seq<T>, sample: T): (r: seq<T>)
    ensures |frames| <= CAPACITY ==> r == Latest(frames + [sample], CAPACITY)
    ensures |frames| > CAPACITY ==> |r| == |frames| && r == (frames + [sample])[1..]
  {
    var pushed := frames + [sample];
    if |pushed| > CAPACITY then pushed[1..] else pushed
  }

  /** The window after pushing `samples` one by one into an empty window. */
  function Replay<T>(samples: seq<T>): seq<T> {
    if |samples| == 0 then []
    else Push(Replay(samples[..|samples| - 1]), samples[|samples| - 1])
  }

  /** Taking the latest `n` after appending one sample is appending it to the latest `n - 1`. */
  lemma LatestAppend<T>(s: seq<T>, x: T, n: nat)
    requires n > 0
    ensures Latest(s + [x], n) == Latest(Latest(s, n) + [x], n)
  {
    var t := Latest(s, n);
    if |s| + 1 <= n {
      assert Latest(s, n) == s;
    } else {
      assert Latest(s + [x], n) == s[|s| + 1 - n..] + [x];
      assert (t + [x])[|t| + 1 - n..] == s[|s| + 1 - n..] + [x];
    }
  }

  /**
   After any sequence of renders the window holds exactly the most recent `CAPACITY`
   samples (all of them when there were fewer), in arrival order.
   */
  lemma {:induction false} ReplayKeepsLatest<T>(samples: seq<T>)
    ensures Replay(samples) == Latest(samples, CAPACITY)
  {
    if |samples| > 0 {
      var init, last := samples[..|samples| - 1], samples[|samples| - 1];
      ReplayKeepsLatest(init);
      assert samples == init + [last];
      LatestAppend(init, last, CAPACITY);
    }
  }

  /** The window never grows past its capacity. */
  lemma ReplayBounded<T>(samples: seq<T>)
    ensures |Replay(samples)| == Arith.Min(|samples|, CAPACITY)
  {
    ReplayKeepsLatest(samples);
  }
}

=== FILE: geometry.dfy ===
/**
 Canvas geometry of the driver: every cell is a `CELL_SIZE` square preceded by a one-pixel
 grid line, so cell `(row, col)` starts at pixel `(col * PITCH + 1, row * PITCH + 1)`.
 */
module Geometry {
  import Arith

  const CELL_SIZE: nat := 5
  /** The distance between the starts of neighbouring cells: one cell plus one grid line. */
  const PITCH: nat := CELL_SIZE + 1

  /** The canvas extent along an axis of `cells` cells: `(CELL_SIZE + 1) * cells + 1`. */
  function CanvasExtent(cells: nat): nat {
    PITCH * cells + 1
  }

  datatype Rect = Rect(x: int, y: int, w: int, h: int) {
    /** Whether the pixel `(px, py)` lies inside the rectangle (right and bottom edges open). */
    predicate Contains(px: real, py: real) {
      x as real <= px < (x + w) as real && y as real <= py < (y + h) as real
    }
  }

  /** The fill rectangle of cell `(row, col)`. */
  function CellRect(row: nat, col: nat): (r: Rect)
    ensures r.w == CELL_SIZE && r.h == CELL_SIZE
  {
    Rect(col * PITCH + 1, row * PITCH + 1, CELL_SIZE, CELL_SIZE)
  }

  /** `Math.floor(p / (CELL_SIZE + 1))` for a canvas coordinate `p`. */
  function CellOf(p: real): int {
    (p / PITCH as real).Floor
  }

  /**
   The click handler's mapping from canvas pixels to `(row, col)`: the cell under the pixel,
   clamped to the last row and column. Any non-negative pixel, including one past the far edge,
   lands inside the grid.
   */
  function PixelToCell(px: real, py: real, width: nat, height: nat): (rc: (int, int))
    requires 0.0 <= px && 0.0 <= py && 0 < width && 0 < height
    ensures 0 <= rc.0 < height && 0 <= rc.1 < width
  {
    (Arith.Min(CellOf(py), height - 1), Arith.Min(CellOf(px), width - 1))
  }

  /** A coordinate in `[k * PITCH, (k + 1) * PITCH)` belongs to cell `k`. */
  lemma CellOfBand(p: real, k: int)
    requires (k * PITCH) as real <= p < ((k + 1) * PITCH) as real
    ensures CellOf(p) == k
  {
    var q := p / PITCH as real;
    assert k as real <= q < (k + 1) as real;
  }

  /** `CellOf` never decreases as the coordinate grows. */
  lemma CellOfMonotone(p: real, q: real)
    requires p <= q
    ensures CellOf(p) <= CellOf(q)
  {
  }

  /** Inside the canvas the clamp does nothing; at or past the far edge it picks the last cell. */
  lemma PixelToCellClamp(px: real, py: real, width: nat, height: nat)
    requires 0.0 <= px && 0.0 <= py && 0 < width && 0 < height
    ensures px < (width * PITCH) as real ==> PixelToCell(px, py, width, height).1 == CellOf(px)
    ensures px >= ((width - 1) * PITCH) as real ==> PixelToCell(px, py, width, height).1 == width - 1
    ensures py < (height * PITCH) as real ==> PixelToCell(px, py, width, height).0 == CellOf(py)
    ensures py >= ((height - 1) * PITCH) as real ==> PixelToCell(px, py, width, height).0 == height - 1
  {
    if px < (width * PITCH) as real {
      assert px / PITCH as real < width as real;
    }
    if px >= ((width - 1) * PITCH) as real {
      CellOfMonotone(((width - 1) * PITCH) as real, px);
      CellOfBand(((width - 1) * PITCH) as real, width - 1);
    }
    if py < (height * PITCH) as real {
      assert py / PITCH as real < height as real;
    }
    if py >= ((height - 1) * PITCH) as real {
      CellOfMonotone(((height - 1) * PITCH) as real, py);
      CellOfBand(((height - 1) * PITCH) as real, height - 1);
    }
  }

  /** A cell's fill rectangle lies on the canvas. */
  lemma CellRectOnCanvas(row: nat, col: nat, width: nat, height: nat)
    requires row < height && col < width
    ensures var r := CellRect(row, col);
      0 < r.x && r.x + r.w <= CanvasExtent(width) && 0 < r.y && r.y + r.h <= CanvasExtent(height)
  {
  }

  /** Every pixel of a cell's fill rectangle maps back to that cell. */
  lemma CellRectMapsBack(row: nat, col: nat, width: nat, height: nat, px: real, py: real)
    requires row < height && col < width
    requires CellRect(row, col).Contains(px, py)
    ensures PixelToCell(px, py, width, height) == (row, col)
  {
    CellOfBand(px, col);
    CellOfBand(py, row);
  }

  /** Fill rectangles of distinct cells do not overlap. */
  lemma CellRectsDisjoint(r1: nat, c1: nat, r2: nat, c2: nat, px: real, py: real)
    requires CellRect(r1, c1).Contains(px, py) && CellRect(r2, c2).Contains(px, py)
    ensures r1 == r2 && c1 == c2
  {
    CellOfBand(px, c1);
    CellOfBand(px, c2);
    CellOfBand(py, r1);
    CellOfBand(py, r2);
  }
}

=== FILE: life_facts.dfy ===
/**
 Properties of the engine: indexing, the toroidal neighbourhood, the generation step and
 the frame conditions of every edit.
 */
module LifeFacts {
  import opened Wrappers
  import opened U32
  import opened Life
  import Arith

  // ---------------------------------------------------------------------------------
  // Indexing.

  /** Inside the grid the wrapping index is the plain row-major index, and it is invertible. */
  lemma IndexInRange(width: u32, height: u32, row: u32, col: u32)
    requires width * height <= MODULUS && row < height && col < width
    ensures GetIndex(width, row, col) == row * width + col < width * height
    ensures GetIndex(width, row, col) / width == row && GetIndex(width, row, col) % width == col
  {
    Arith.FlatBound(row, col, width, height);
    Arith.FlatDivMod(row, col, width);
  }

  /** Distinct cells of the grid have distinct indices. */
  lemma IndexInjective(width: u32, height: u32, r1: u32, c1: u32, r2: u32, c2: u32)
    requires width * height <= MODULUS
    requires r1 < height && c1 < width && r2 < height && c2 < width
    ensures GetIndex(width, r1, c1) == GetIndex(width, r2, c2) <==> r1 == r2 && c1 == c2
  {
    IndexInRange(width, height, r1, c1);
    IndexInRange(width, height, r2, c2);
    if GetIndex(width, r1, c1) == GetIndex(width, r2, c2) {
      Arith.FlatInjective(r1, c1, r2, c2, width);
    }
  }

  /** A grid cell is alive exactly when its row-major bit is set. */
  lemma AliveIsBit(u: Universe, row: u32, col: u32)
    requires Fits(u) && InGrid(u, row, col)
    ensures row * u.width + col < u.width * u.height
    ensures Alive(u, row, col) == u.cells[row * u.width + col]
  {
    IndexInRange(u.width, u.height, row, col);
  }

  // ---------------------------------------------------------------------------------
  // The toroidal neighbourhood, defined independently with signed offsets.

  /** The cell at `(row, col)` after wrapping both coordinates onto the torus. */
  function TorusAlive(u: Universe, row: int, col: int): bool
    requires u.height > 0 && u.width > 0
  {
    BitAt(u.cells, (row % u.height) * u.width + col % u.width)
  }

  function Count(b: bool): nat {
    if b then 1 else 0
  }

  /** The live cells among `(row, col - 1)`, `(row, col)` and `(row, col + 1)` on the torus. */
  function TorusTriple(u: Universe, row: int, col: int): nat
    requires u.height > 0 && u.width > 0
  {
    Count(TorusAlive(u, row, col - 1)) + Count(TorusAlive(u, row, col)) + Count(TorusAlive(u, row, col + 1))
  }

  /**
   The live Moore neighbours on the torus: the live cells of the 3×3 block centred on the
   cell, less the cell itself (cells are counted with multiplicity when the torus is small).
   */
  function TorusNeighbors(u: Universe, row: int, col: int): nat
    requires u.height > 0 && u.width > 0
  {
    TorusTriple(u, row - 1, col) + TorusTriple(u, row, col) + TorusTriple(u, row + 1, col) - Count(TorusAlive(u, row, col))
  }

  /** Adding the unsigned offset `delta` modulo `m` is adding the signed offset `off`. */
  lemma OffsetMatches(x: u32, m: u32, delta: u32, off: int)
    requires 2 <= m && 2 * m <= MODULUS && x < m
    requires (delta == m - 1 && off == -1) || (delta == 0 && off == 0) || (delta == 1 && off == 1)
    ensures Wrap(x + delta) % m == (x + off) % m
  {
    Arith.ModOnce(x + delta, m);
    if off == -1 {
      if x == 0 {
        Arith.ModMinusOne(m);
      } else {
        Arith.ModOnce(x - 1, m);
      }
    } else {
      Arith.ModOnce(x + off, m);
    }
  }

  lemma BitMatches(u: Universe, row: u32, col: u32, dRow: u32, dCol: u32, offR: int, offC: int, r: int, c: int)
    requires Fits(u) && u.width >= 2 && u.height >= 2 && InGrid(u, row, col)
    requires (dRow == u.height - 1 && offR == -1) || (dRow == 0 && offR == 0) || (dRow == 1 && offR == 1)
    requires (dCol == u.width - 1 && offC == -1) || (dCol == 0 && offC == 0) || (dCol == 1 && offC == 1)
    requires r == row + offR && c == col + offC
    ensures NeighborBit(u, row, col, dRow, dCol) == if offR == 0 && offC == 0 then 0 else Count(TorusAlive(u, r, c))
  {
    Arith.HalfBound(u.width, u.height, MODULUS);
    Arith.HalfBound(u.height, u.width, MODULUS);
    OffsetMatches(row, u.height, dRow, offR);
    OffsetMatches(col, u.width, dCol, offC);
    var nRow: u32 := Wrap(row + dRow) % u.height;
    var nCol: u32 := Wrap(col + dCol) % u.width;
    IndexInRange(u.width, u.height, nRow, nCol);
  }

  /**
   On a grid at least two cells wide and high, the engine's count is exactly the number of
   live toroidal neighbours; the cell itself is never counted.
   */
  lemma NeighborCountIsToroidal(u: Universe, row: u32, col: u32)
    requires Fits(u) && u.width >= 2 && u.height >= 2 && InGrid(u, row, col)
    ensures LiveNeighborCount(u, row, col) == TorusNeighbors(u, row, col)
  {
    var centre := Count(TorusAlive(u, row, col));
    assert NeighborRow(u, row, col, u.height - 1) == TorusTriple(u, row - 1, col) by {
      RowMatches(u, row, col, u.height - 1, -1, row - 1);
    }
    assert NeighborRow(u, row, col, 0) + centre == TorusTriple(u, row, col) by {
      RowMatches(u, row, col, 0, 0, row);
    }
    assert NeighborRow(u, row, col, 1) == TorusTriple(u, row + 1, col) by {
      RowMatches(u, row, col, 1, 1, row + 1);
    }
  }

  /** One row of the engine's sum is the matching row of the toroidal sum. */
  lemma RowMatches(u: Universe, row: u32, col: u32, dRow: u32, offR: int, r: int)
    requires Fits(u) && u.width >= 2 && u.height >= 2 && InGrid(u, row, col)
    requires (dRow == u.height - 1 && offR == -1) || (dRow == 0 && offR == 0) || (dRow == 1 && offR == 1)
    requires r == row + offR
    ensures NeighborRow(u, row, col, dRow) + (if offR == 0 then Count(TorusAlive(u, row, col)) else 0)
      == TorusTriple(u, r, col)
  {
    BitMatches(u, row, col, dRow, u.width - 1, offR, -1, r, col - 1);
    BitMatches(u, row, col, dRow, 0, offR, 0, r, col);
    BitMatches(u, row, col, dRow, 1, offR, 1, r, col + 1);
  }

  // ---------------------------------------------------------------------------------
  // The generation step.

  /** Every grid cell of the next generation follows B3/S23 applied to the old generation. */
  lemma StepCell(u: Universe, row: u32, col: u32)
    requires Fits(u) && InGrid(u, row, col)
    ensures var n := LiveNeighborCount(u, row, col);
      Alive(Step(u), row, col) <==> (Alive(u, row, col) && (n == 2 || n == 3)) || (!Alive(u, row, col) && n == 3)
  {
    IndexInRange(u.width, u.height, row, col);
  }

  /** The same rule stated with the toroidal neighbour count. */
  lemma StepCellToroidal(u: Universe, row: u32, col: u32)
    requires Fits(u) && u.width >= 2 && u.height >= 2 && InGrid(u, row, col)
    ensures var n := TorusNeighbors(u, row, col);
      Alive(Step(u), row, col) <==> (Alive(u, row, col) && (n == 2 || n == 3)) || (!Alive(u, row, col) && n == 3)
  {
    StepCell(u, row, col);
    NeighborCountIsToroidal(u, row, col);
  }

  /** A step keeps the dimensions and the bitset length, and leaves bits past the grid alone. */
  lemma StepFrame(u: Universe)
    requires Fits(u)
    ensures Step(u).width == u.width && Step(u).height == u.height && |Step(u).cells| == |u.cells|
    ensures Fits(Step(u))
    ensures forall i :: u.width * u.height <= i < |u.cells| ==> Step(u).cells[i] == u.cells[i]
  {
  }

  predicate GridDead(u: Universe) {
    forall i :: 0 <= i < u.width * u.height && i < |u.cells| ==> !u.cells[i]
  }

  /** With no live grid cell, no neighbour count is positive. */
  lemma DeadNeighbors(u: Universe, row: u32, col: u32)
    requires Fits(u) && GridDead(u) && u.width > 0 && u.height > 0
    ensures LiveNeighborCount(u, row, col) == 0
  {
    forall dRow: u32, dCol: u32 ensures NeighborBit(u, row, col, dRow, dCol) == 0 {
      if dRow != 0 || dCol != 0 {
        var nRow: u32 := Wrap(row + dRow) % u.height;
        var nCol: u32 := Wrap(col + dCol) % u.width;
        IndexInRange(u.width, u.height, nRow, nCol);
      }
    }
  }

  /** An all-dead grid stays all-dead. */
  lemma StepKeepsDead(u: Universe)
    requires Fits(u) && GridDead(u)
    ensures GridDead(Step(u))
  {
    forall i | 0 <= i < u.width * u.height
      ensures !Step(u).cells[i]
    {
      StepKeepsDeadAt(u, i);
    }
  }

  lemma StepKeepsDeadAt(u: Universe, i: nat)
    requires Fits(u) && GridDead(u) && i < u.width * u.height
    ensures !Step(u).cells[i]
  {
    Arith.Unflatten(i, u.width, u.height);
    var row: u32, col: u32 := i / u.width, i % u.width;
    DeadNeighbors(u, row, col);
    assert Step(u).cells[i] == NextCell(u, i) == Rule(u.cells[i], 0);
  }

  // ---------------------------------------------------------------------------------
  // Edits.

  /** Toggling an in-grid cell flips that cell and no other bit. */
  lemma ToggleFlipsOnlyTarget(u: Universe, row: u32, col: u32)
    requires Fits(u) && InGrid(u, row, col)
    ensures ToggleCell(u, row, col).Some? && Flipped(u, ToggleCell(u, row, col).value, row, col)
  {
    IndexInRange(u.width, u.height, row, col);
    var v := ToggleCell(u, row, col).value;
    forall r: u32, c: u32 | InGrid(u, r, c)
      ensures Alive(v, r, c) <==> (Alive(u, r, c) != (r == row && c == col))
    {
      IndexInjective(u.width, u.height, r, c, row, col);
      IndexInRange(u.width, u.height, r, c);
    }
  }

  /**
   `v` is `u` with exactly grid cell `(row, col)` flipped: every other grid cell keeps its
   state and bits past the grid keep their value.
   */
  predicate Flipped(u: Universe, v: Universe, row: u32, col: u32) {
    && v.width == u.width && v.height == u.height && |v.cells| == |u.cells|
    && (forall r: u32, c: u32 :: InGrid(u, r, c) ==> (Alive(v, r, c) <==> (Alive(u, r, c) != (r == row && c == col))))
    && (forall i :: u.width * u.height <= i < |u.cells| ==> v.cells[i] == u.cells[i])
  }

  /** Toggling the same cell twice restores the universe. */
  lemma ToggleTwice(u: Universe, row: u32, col: u32)
    requires ToggleCell(u, row, col).Some?
    ensures ToggleCell(ToggleCell(u, row, col).value, row, col) == Some(u)
  {
    var idx := GetIndex(u.width, row, col);
    assert ToggleCell(u, row, col).value.cells[idx := !ToggleCell(u, row, col).value.cells[idx]] == u.cells;
  }

  /**
   `v` is `u` with exactly the listed grid cells set alive: no grid cell dies, every other
   grid cell keeps its state, and bits past the grid keep their value.
   */
  predicate Stamped(u: Universe, v: Universe, cells: seq<(int, int)>) {
    && v.width == u.width && v.height == u.height && |v.cells| == |u.cells|
    && (forall r: u32, c: u32 :: InGrid(u, r, c) ==> (Alive(v, r, c) <==> Alive(u, r, c) || (r, c) in cells))
    && (forall i :: u.width * u.height <= i < |u.cells| ==> v.cells[i] == u.cells[i])
  }

  /** Setting the row-major indices of a list of in-grid cells stamps exactly those cells. */
  lemma StampFootprint(u: Universe, cells: seq<(int, int)>, idxs: seq<int>)
    requires Fits(u) && |idxs| == |cells|
    requires forall k :: 0 <= k < |cells| ==> InGrid(u, cells[k].0, cells[k].1)
    requires forall k :: 0 <= k < |cells| ==> idxs[k] == cells[k].0 * u.width + cells[k].1
    ensures SetAll(u.cells, idxs).Some? && Stamped(u, u.(cells := SetAll(u.cells, idxs).value), cells)
  {
    StampIndicesInGrid(u, cells, idxs);
    StampGrid(u, cells, idxs);
    StampTail(u, idxs);
  }

  /** Every grid cell is alive after the stamp exactly when it was alive or is listed. */
  lemma StampGrid(u: Universe, cells: seq<(int, int)>, idxs: seq<int>)
    requires Fits(u) && |idxs| == |cells|
    requires forall k :: 0 <= k < |cells| ==> InGrid(u, cells[k].0, cells[k].1)
    requires forall k :: 0 <= k < |cells| ==> idxs[k] == cells[k].0 * u.width + cells[k].1
    requires SetAll(u.cells, idxs).Some?
    ensures var v := u.(cells := SetAll(u.cells, idxs).value);
      forall r: u32, c: u32 :: InGrid(u, r, c) ==> (Alive(v, r, c) <==> Alive(u, r, c) || (r, c) in cells)
  {
    var v := u.(cells := SetAll(u.cells, idxs).value);
    forall r: u32, c: u32 | InGrid(u, r, c)
      ensures Alive(v, r, c) <==> Alive(u, r, c) || (r, c) in cells
    {
      StampCell(u, cells, idxs, r, c);
    }
  }

  /** Bits past the grid are not touched by a stamp of in-grid indices. */
  lemma StampTail(u: Universe, idxs: seq<int>)
    requires Fits(u) && forall k :: 0 <= k < |idxs| ==> 0 <= idxs[k] < u.width * u.height
    ensures SetAll(u.cells, idxs).Some?
    ensures forall i :: u.width * u.height <= i < |u.cells| ==> SetAll(u.cells, idxs).value[i] == u.cells[i]
  {
    forall i | u.width * u.height <= i < |u.cells| ensures SetAll(u.cells, idxs).value[i] == u.cells[i] {
      assert i !in idxs;
    }
  }

  /** The indices of in-grid cells lie in the grid, so setting them cannot panic. */
  lemma StampIndicesInGrid(u: Universe, cells: seq<(int, int)>, idxs: seq<int>)
    requires Fits(u) && |idxs| == |cells|
    requires forall k :: 0 <= k < |cells| ==> InGrid(u, cells[k].0, cells[k].1)
    requires forall k :: 0 <= k < |cells| ==> idxs[k] == cells[k].0 * u.width + cells[k].1
    ensures forall k :: 0 <= k < |idxs| ==> 0 <= idxs[k] < u.width * u.height
    ensures SetAll(u.cells, idxs).Some?
  {
    forall k | 0 <= k < |idxs| ensures 0 <= idxs[k] < u.width * u.height {
      CellIndexInGrid(u, cells[k].0, cells[k].1, idxs[k]);
    }
  }

  /** The row-major index of an in-grid cell lies in the grid. */
  lemma CellIndexInGrid(u: Universe, r: int, c: int, idx: int)
    requires InGrid(u, r, c) && idx == r * u.width + c
    ensures 0 <= idx < u.width * u.height
  {
    Arith.FlatBound(r, c, u.width, u.height);
  }

  /** One grid cell of `StampFootprint`: it is set exactly when it is listed or was alive. */
  lemma StampCell(u: Universe, cells: seq<(int, int)>, idxs: seq<int>, r: u32, c: u32)
    requires Fits(u) && |idxs| == |cells| && InGrid(u, r, c)
    requires forall k :: 0 <= k < |cells| ==> InGrid(u, cells[k].0, cells[k].1)
    requires forall k :: 0 <= k < |cells| ==> idxs[k] == cells[k].0 * u.width + cells[k].1
    requires SetAll(u.cells, idxs).Some?
    ensures Alive(u.(cells := SetAll(u.cells, idxs).value), r, c) <==> Alive(u, r, c) || (r, c) in cells
  {
    IndexInRange(u.width, u.height, r, c);
    var idx := r * u.width + c;
    assert Alive(u.(cells := SetAll(u.cells, idxs).value), r, c) <==> u.cells[idx] || idx in idxs;
    assert idx in idxs <==> (r, c) in cells by {
      ListedIndex(u, cells, idxs, r, c);
    }
  }

  /** A grid cell's index is among the listed indices exactly when the cell is listed. */
  lemma ListedIndex(u: Universe, cells: seq<(int, int)>, idxs: seq<int>, r: u32, c: u32)
    requires Fits(u) && |idxs| == |cells| && InGrid(u, r, c)
    requires forall k :: 0 <= k < |cells| ==> InGrid(u, cells[k].0, cells[k].1)
    requires forall k :: 0 <= k < |cells| ==> idxs[k] == cells[k].0 * u.width + cells[k].1
    ensures r * u.width + c in idxs <==> (r, c) in cells
  {
    if (r, c) in cells {
      var k :| 0 <= k < |cells| && cells[k] == (r, c);
      assert idxs[k] == r * u.width + c;
    }
    if r * u.width + c in idxs {
      var k :| 0 <= k < |idxs| && idxs[k] == r * u.width + c;
      Arith.FlatInjective(cells[k].0, cells[k].1, r, c, u.width);
      assert cells[k] == (r, c);
    }
  }

  function GliderCells(row: int, col: int): seq<(int, int)> {
    [(row, col), (row - 1, col - 1), (row - 1, col + 1), (row, col + 1), (row + 1, col)]
  }

  /** Away from the edges, the glider sets exactly its five cells alive and nothing else changes. */
  lemma GliderFootprint(u: Universe, row: u32, col: u32)
    requires Fits(u) && 1 <= row && row + 1 < u.height && 1 <= col && col + 1 < u.width
    ensures SpawnGlider(u, row, col).Some? && Stamped(u, SpawnGlider(u, row, col).value, GliderCells(row, col))
  {
    var idxs := GliderIndices(u.width, row, col);
    var cells := GliderCells(row, col);
    IndexInRange(u.width, u.height, row, col);
    IndexInRange(u.width, u.height, row - 1, col - 1);
    IndexInRange(u.width, u.height, row - 1, col + 1);
    IndexInRange(u.width, u.height, row, col + 1);
    IndexInRange(u.width, u.height, row + 1, col);
    StampFootprint(u, cells, idxs);
    assert SpawnGlider(u, row, col) == Some(u.(cells := SetAll(u.cells, idxs).value));
  }

  /**
   At the left edge the `column - 1` term wraps to 2^32 - 1, so the engine sets the last cell
   of the row two above instead of the toroidal neighbour one row above.
   */
  lemma GliderLeftEdgeWraps(u: Universe, row: u32)
    requires Fits(u) && 2 <= row && row + 1 < u.height && 3 <= u.width
    ensures SpawnGlider(u, row, 0).Some?
    ensures Stamped(u, SpawnGlider(u, row, 0).value, [(row, 0), (row - 2, u.width - 1), (row - 1, 1), (row, 1), (row + 1, 0)])
  {
    var idxs := GliderIndices(u.width, row, 0);
    var cells: seq<(int, int)> := [(row, 0), (row - 2, u.width - 1), (row - 1, 1), (row, 1), (row + 1, 0)];
    IndexInRange(u.width, u.height, row, 0);
    IndexInRange(u.width, u.height, row - 1, 1);
    IndexInRange(u.width, u.height, row, 1);
    IndexInRange(u.width, u.height, row + 1, 0);
    IndexInRange(u.width, u.height, row - 2, u.width - 1);
    assert (row - 1) * u.width - 1 == (row - 2) * u.width + u.width - 1;
    assert idxs[1] == (row - 2) * u.width + u.width - 1;
    StampFootprint(u, cells, idxs);
    assert SpawnGlider(u, row, 0) == Some(u.(cells := SetAll(u.cells, idxs).value));
  }

  /**
   At the right edge the `column + 1` terms run into the next row: the engine sets
   `(row, 0)` and `(row + 1, 0)` instead of the toroidal neighbours `(row - 1, 0)` and `(row, 0)`.
   */
  lemma GliderRightEdgeWraps(u: Universe, row: u32)
    requires Fits(u) && 1 <= row && row + 1 < u.height && 2 <= u.width
    ensures SpawnGlider(u, row, u.width - 1).Some?
    ensures Stamped(u, SpawnGlider(u, row, u.width - 1).value,
                    [(row, u.width - 1), (row - 1, u.width - 2), (row, 0), (row + 1, 0), (row + 1, u.width - 1)])
  {
    var col := u.width - 1;
    var idxs := GliderIndices(u.width, row, col);
    var cells: seq<(int, int)> := [(row, col), (row - 1, col - 1), (row, 0), (row + 1, 0), (row + 1, col)];
    assert SetAll(u.cells, idxs).Some? && Stamped(u, u.(cells := SetAll(u.cells, idxs).value), cells) by {
      RightEdgeIndices(u.width, u.height, row);
      StampFootprint(u, cells, idxs);
    }
    assert SpawnGlider(u, row, col) == Some(u.(cells := SetAll(u.cells, idxs).value));
  }

  /** The glider's indices in the last column, each written as a row-major cell index. */
  lemma RightEdgeIndices(width: u32, height: u32, row: u32)
    requires width * height <= MODULUS && 1 <= row && row + 1 < height && 2 <= width
    ensures GliderIndices(width, row, width - 1)
         == [row * width + (width - 1), (row - 1) * width + (width - 2), row * width + 0,
             (row + 1) * width + 0, (row + 1) * width + (width - 1)]
  {
    Arith.FlatBound(row, width - 1, width, height);
    Arith.FlatBound(row - 1, width - 2, width, height);
    Arith.FlatBound(row + 1, width - 1, width, height);
    Arith.NextRow(row - 1, width);
    Arith.NextRow(row, width);
  }

  /** On the last row the `row + 1` term is past a bitset of exactly `width * height` bits. */
  lemma GliderBottomPanics(u: Universe, col: u32)
    requires |u.cells| == u.width * u.height && u.width * (u.height + 1) <= MODULUS
    requires 0 < u.height && col < u.width
    ensures SpawnGlider(u, u.height - 1, col).None?
  {
    var idxs := GliderIndices(u.width, u.height - 1, col);
    PastLastRow(u.width, u.height, col);
    assert idxs[4] == u.height * u.width + col;
  }

  /**
   On the first row the `row - 1` term wraps to 2^32 - 1, and at `(1, 0)` the `column - 1` term
   does: either way the second glider index lies near 2^32, past a bitset of exactly
   `width * height` bits.
   */
  lemma GliderTopPanics(u: Universe, row: u32, col: u32)
    requires |u.cells| == u.width * u.height && |u.cells| + u.width < MODULUS
    requires 0 < u.height && col < u.width && (row == 0 || (row == 1 && col == 0))
    ensures SpawnGlider(u, row, col).None?
  {
    TopGliderIndex(u.width, row, col);
    GliderIndexPastEnd(u, row, col, 1);
  }

  /** A glider whose `k`-th index is past the bitset panics. */
  lemma GliderIndexPastEnd(u: Universe, row: u32, col: u32, k: nat)
    requires k < 5 && GliderIndices(u.width, row, col)[k] >= |u.cells|
    ensures SpawnGlider(u, row, col).None?
  {
  }

  /** The second glider index, `(row - 1, column - 1)`, of a top anchor lies just below 2^32. */
  lemma TopGliderIndex(width: u32, row: u32, col: u32)
    requires col < width && (row == 0 || (row == 1 && col == 0))
    ensures GliderIndices(width, row, col)[1] >= MODULUS - width - 1
  {
    if row == 1 {
      assert GliderIndices(width, row, col)[1] == GetIndex(width, 0, MODULUS - 1);
    } else if col == 0 {
      RowMinusOne(width, MODULUS - 1);
      assert GliderIndices(width, row, col)[1] == GetIndex(width, MODULUS - 1, MODULUS - 1);
    } else {
      RowMinusOne(width, col - 1);
      assert GliderIndices(width, row, col)[1] == GetIndex(width, MODULUS - 1, col - 1);
    }
  }

  /** Row 2^32 - 1 is row -1 in wrapping arithmetic: its indices lie just below 2^32. */
  lemma RowMinusOne(width: u32, c: u32)
    requires 0 < width && (c < width || c == MODULUS - 1)
    ensures GetIndex(width, MODULUS - 1, c) >= MODULUS - width - 1
  {
    if c < width {
      assert (MODULUS - 1) * width + c == MODULUS * (width - 1) + (MODULUS - width + c);
      Arith.ModMultiple(width - 1, MODULUS - width + c, MODULUS);
    } else {
      assert (MODULUS - 1) * width + c == MODULUS * width + (MODULUS - width - 1);
      Arith.ModMultiple(width, MODULUS - width - 1, MODULUS);
    }
  }

  /** The first index below the grid does not wrap when one more row fits in 32 bits. */
  lemma PastLastRow(width: u32, height: u32, col: u32)
    requires width * (height + 1) <= MODULUS && col < width
    ensures GetIndex(width, height, col) == height * width + col >= width * height
  {
    assert width * (height + 1) == height * width + width;
  }

  function PulsarCells(row: int, col: int): seq<(int, int)> {
    [(row, col), (row + 1, col), (row + 2, col)]
  }

  /** When three rows fit below `row`, the pulsar sets exactly its three cells alive. */
  lemma PulsarFootprint(u: Universe, row: u32, col: u32)
    requires Fits(u) && row + 2 < u.height && col < u.width
    ensures SpawnPulsar(u, row, col).Some? && Stamped(u, SpawnPulsar(u, row, col).value, PulsarCells(row, col))
  {
    var idxs := PulsarIndices(u.width, row, col);
    var cells := PulsarCells(row, col);
    IndexInRange(u.width, u.height, row, col);
    IndexInRange(u.width, u.height, row + 1, col);
    IndexInRange(u.width, u.height, row + 2, col);
    StampFootprint(u, cells, idxs);
    assert SpawnPulsar(u, row, col) == Some(u.(cells := SetAll(u.cells, idxs).value));
  }

  /** In one of the last two rows the pulsar runs past a bitset of exactly `width * height` bits. */
  lemma PulsarPastBottomPanics(u: Universe, row: u32, col: u32)
    requires |u.cells| == u.width * u.height && u.width * (u.height + 1) <= MODULUS
    requires row < u.height <= row + 2 && col < u.width
    ensures SpawnPulsar(u, row, col).None?
  {
    var idxs := PulsarIndices(u.width, row, col);
    PastLastRow(u.width, u.height, col);
    if row + 1 == u.height {
      assert idxs[1] == u.height * u.width + col;
    } else {
      assert idxs[2] == u.height * u.width + col;
    }
  }

  /** Setting a list of in-grid cells sets exactly those cells alive. */
  lemma SetCellsFootprint(u: Universe, cells: seq<(u32, u32)>)
    requires Fits(u) && forall k :: 0 <= k < |cells| ==> InGrid(u, cells[k].0, cells[k].1)
    ensures SetCells(u, cells).Some? && Stamped(u, SetCells(u, cells).value, Pairs(cells))
  {
    var idxs := CellIndices(u.width, cells);
    var pairs := Pairs(cells);
    forall k | 0 <= k < |cells| ensures idxs[k] == pairs[k].0 * u.width + pairs[k].1 {
      IndexInRange(u.width, u.height, cells[k].0, cells[k].1);
    }
    StampFootprint(u, pairs, idxs);
    assert SetCells(u, cells) == Some(u.(cells := SetAll(u.cells, idxs).value));
  }

  /** The `(row, column)` pairs of a cell list, as plain integers. */
  function Pairs(cells: seq<(u32, u32)>): (pairs: seq<(int, int)>)
    ensures |pairs| == |cells|
  {
    seq(|cells|, k requires 0 <= k < |cells| => (cells[k].0 as int, cells[k].1 as int))
  }

  /** Killing everything twice is the same as killing once. */
  lemma KillAllIdempotent(u: Universe)
    ensures KillAll(KillAll(u)) == KillAll(u)
  {
  }

  /** The seed is the 64 x 64 grid with exactly a glider in its top-left corner. */
  lemma NewSeed()
    ensures New().width == 64 && New().height == 64 && |New().cells| == 4096 && Fits(New())
    ensures forall r: u32, c: u32 :: InGrid(New(), r, c) ==>
      (Alive(New(), r, c) <==> (r, c) in [(0, 3), (1, 1), (1, 3), (2, 2), (2, 3)])
  {
    var u := New();
    forall r: u32, c: u32 | InGrid(u, r, c)
      ensures Alive(u, r, c) <==> (r, c) in [(0, 3), (1, 1), (1, 3), (2, 2), (2, 3)]
    {
      IndexInRange(64, 64, r, c);
    }
  }
}

=== FILE: renderer.dfy ===
/**
 The grid renderer: `drawGrid` strokes the grid lines, `drawCells` fills every cell in two
 passes, first the live cells in the alive colour and then the dead cells in the dead colour.
 Drawing is modelled as the sequence of canvas calls it issues.
 */
module Renderer {
  import Geometry
  import Snapshot
  import Life
  import LifeFacts
  import U32

  datatype Color = GridColor | DeadColor | AliveColor

  /** One `fillRect` of `CellRect(row, col)` with fill style `color`. */
  datatype Fill = Fill(color: Color, row: nat, col: nat)

  /** One `moveTo(x0, y0)` / `lineTo(x1, y1)` pair. */
  datatype Line = Line(x0: int, y0: int, x1: int, y1: int)

  function Shade(alive: bool): Color {
    if alive then AliveColor else DeadColor
  }

  /** A grid state as the renderer reads it: whether cell `(row, col)` is alive. */
  type Grid = (nat, nat) -> bool

  /** Whether the driver decodes cell `(row, col)` as alive: `bitIsSet(getIndex(row, col), cells)`. */
  function LiveAt(width: nat, view: seq<bv8>, row: nat, col: nat): bool {
    Snapshot.BitIsSet(Snapshot.JsGetIndex(width, row, col), view)
  }

  /** The grid state the driver decodes from a byte view. */
  function Decode(width: nat, view: seq<bv8>): Grid {
    (row: nat, col: nat) => LiveAt(width, view, row, col)
  }

  // ---------------------------------------------------------------------------------
  // Cells.

  /** The fill a pass over cells in state `alive` issues at `(row, col)`, if any. */
  function Visit(live: Grid, alive: bool, row: nat, col: nat): seq<Fill> {
    if live(row, col) == alive then [Fill(Shade(alive), row, col)] else []
  }

  /** The fills of one pass over the first `cols` columns of row `row`. */
  function RowFills(live: Grid, alive: bool, row: nat, cols: nat): seq<Fill> {
    if cols == 0 then []
    else RowFills(live, alive, row, cols - 1) + Visit(live, alive, row, cols - 1)
  }

  /** The fills of one pass over the first `rows` rows, in row-major order. */
  function Pass(width: nat, live: Grid, alive: bool, rows: nat): seq<Fill> {
    if rows == 0 then []
    else Pass(width, live, alive, rows - 1) + RowFills(live, alive, rows - 1, width)
  }

  /** Both passes over the whole grid: live cells first, then dead cells. */
  function TwoPass(width: nat, height: nat, live: Grid): seq<Fill> {
    Pass(width, live, true, height) + Pass(width, live, false, height)
  }

  /** The reference drawing's fill of cell `(row, col)`: always one, in the cell's own colour. */
  function Paint(live: Grid, row: nat, col: nat): seq<Fill> {
    [Fill(Shade(live(row, col)), row, col)]
  }

  /** The reference drawing of one row: every cell in its own colour. */
  function RowPaint(live: Grid, row: nat, cols: nat): seq<Fill> {
    if cols == 0 then []
    else RowPaint(live, row, cols - 1) + Paint(live, row, cols - 1)
  }

  /** The reference single pass: every one of the first `rows` rows, each cell in its own colour. */
  function SinglePass(width: nat, live: Grid, rows: nat): seq<Fill> {
    if rows == 0 then []
    else SinglePass(width, live, rows - 1) + RowPaint(live, rows - 1, width)
  }

  /** One pass of `drawCells` over rows and columns. */
  method CellPass(width: nat, height: nat, view: seq<bv8>, alive: bool) returns (fills: seq<Fill>)
    ensures fills == Pass(width, Decode(width, view), alive, height)
  {
    fills := [];
    for row := 0 to height
      invariant fills == Pass(width, Decode(width, view), alive, row)
    {
      var cells := RowPass(width, view, alive, row);
      fills := fills + cells;
    }
  }

  /** The inner loop of one pass: the columns of row `row`, skipping cells in the other state. */
  method RowPass(width: nat, view: seq<bv8>, alive: bool, row: nat) returns (fills: seq<Fill>)
    ensures fills == RowFills(Decode(width, view), alive, row, width)
  {
    fills := [];
    for col := 0 to width
      invariant fills == RowFills(Decode(width, view), alive, row, col)
    {
      var idx := Snapshot.JsGetIndex(width, row, col);
      if Snapshot.BitIsSet(idx, view) != alive {
        continue;
      }
      fills := fills + [Fill(Shade(alive), row, col)];
    }
  }

  /** The driver's `drawCells` on a decoded byte view of the grid. */
  method DrawCells(width: nat, height: nat, view: seq<bv8>) returns (fills: seq<Fill>)
    ensures fills == TwoPass(width, height, Decode(width, view))
  {
    var alive := CellPass(width, height, view, true);
    var dead := CellPass(width, height, view, false);
    fills := alive + dead;
  }

  /** The colour a pass over cells in state `alive` gives cell `f`, when it gives it one. */
  predicate Painted(live: Grid, alive: bool, f: Fill) {
    f.color == Shade(alive) && live(f.row, f.col) == alive
  }

  /** Whether `f` fills its cell in the cell's own colour. */
  predicate OwnColor(live: Grid, f: Fill) {
    f.color == Shade(live(f.row, f.col))
  }

  /** How many times `f` occurs among the first `n` elements of `s`. */
  function CountPrefix(s: seq<Fill>, f: Fill, n: nat): nat
    requires n <= |s|
  {
    if n == 0 then 0 else CountPrefix(s, f, n - 1) + (if s[n - 1] == f then 1 else 0)
  }

  /** How many times `f` occurs in `s`. */
  function Occurrences(s: seq<Fill>, f: Fill): nat {
    CountPrefix(s, f, |s|)
  }

  /** Two sequences that agree on a prefix count the same there. */
  lemma {:induction false} CountPrefixSame(s: seq<Fill>, t: seq<Fill>, f: Fill, n: nat)
    requires n <= |s| && n <= |t| && s[..n] == t[..n]
    ensures CountPrefix(s, f, n) == CountPrefix(t, f, n)
  {
    if n > 0 {
      assert s[..n - 1] == t[..n - 1] by {
        assert s[..n - 1] == s[..n][..n - 1];
        assert t[..n - 1] == t[..n][..n - 1];
      }
      assert s[n - 1] == s[..n][n - 1] == t[..n][n - 1] == t[n - 1];
      CountPrefixSame(s, t, f, n - 1);
    }
  }

  /** Counting a prefix of `a + b` that covers `a` counts all of `a` and a prefix of `b`. */
  lemma {:induction false} CountPrefixAppend(a: seq<Fill>, b: seq<Fill>, f: Fill, n: nat)
    requires n <= |b|
    ensures CountPrefix(a + b, f, |a| + n) == CountPrefix(a, f, |a|) + CountPrefix(b, f, n)
  {
    if n == 0 {
      assert (a + b)[..|a|] == a[..|a|];
      CountPrefixSame(a + b, a, f, |a|);
    } else {
      CountPrefixAppend(a, b, f, n - 1);
      assert (a + b)[|a| + n - 1] == b[n - 1];
    }
  }

  /** Occurrences in a concatenation add up. */
  lemma OccurrencesAppend(a: seq<Fill>, b: seq<Fill>, f: Fill)
    ensures Occurrences(a + b, f) == Occurrences(a, f) + Occurrences(b, f)
  {
    CountPrefixAppend(a, b, f, |b|);
  }

  /** A one-element sequence holds `f` once when its element is `f`. */
  lemma SingletonCount(x: Fill, f: Fill)
    ensures Occurrences([x], f) == if x == f then 1 else 0
  {
    assert CountPrefix([x], f, 1) == CountPrefix([x], f, 0) + (if [x][0] == f then 1 else 0);
  }

  /** The occurrence count is the multiplicity in the sequence's multiset. */
  lemma {:induction false} OccurrencesAreMultiplicity(s: seq<Fill>, f: Fill)
    ensures Occurrences(s, f) == multiset(s)[f]
  {
    if |s| > 0 {
      var init, last := s[..|s| - 1], s[|s| - 1];
      OccurrencesAreMultiplicity(init, f);
      assert s == init + [last];
      OccurrencesAppend(init, [last], f);
      SingletonCount(last, f);
      assert multiset(s) == multiset(init) + multiset{last};
      assert multiset{last}[f] == if last == f then 1 else 0;
    }
  }

  /** Two sequences in which every element occurs equally often have the same multiset. */
  lemma SameOccurrences(a: seq<Fill>, b: seq<Fill>)
    requires forall f :: Occurrences(a, f) == Occurrences(b, f)
    ensures multiset(a) == multiset(b)
  {
    forall f ensures multiset(a)[f] == multiset(b)[f] {
      OccurrencesAreMultiplicity(a, f);
      OccurrencesAreMultiplicity(b, f);
    }
  }

  /** The fills of one visit: one when the cell is in the pass's state. */
  lemma VisitCount(live: Grid, alive: bool, row: nat, col: nat, f: Fill)
    ensures Occurrences(Visit(live, alive, row, col), f) ==
      if f.row == row && f.col == col && Painted(live, alive, f) then 1 else 0
  {
    var here := Visit(live, alive, row, col);
    if |here| > 0 {
      SingletonCount(here[0], f);
      assert here == [here[0]];
    }
  }

  /** A row pass fills cell `f` once when it lies among its first `cols` columns and is in the pass's state. */
  lemma {:induction false} RowCount(live: Grid, alive: bool, row: nat, cols: nat, f: Fill)
    ensures Occurrences(RowFills(live, alive, row, cols), f) ==
      if f.row == row && f.col < cols && Painted(live, alive, f) then 1 else 0
  {
    if cols > 0 {
      var before, here := RowFills(live, alive, row, cols - 1), Visit(live, alive, row, cols - 1);
      var painted := Painted(live, alive, f);
      assert Occurrences(before, f) == if f.row == row && f.col < cols - 1 && painted then 1 else 0 by {
        RowCount(live, alive, row, cols - 1, f);
      }
      assert Occurrences(here, f) == if f.row == row && f.col == cols - 1 && painted then 1 else 0 by {
        VisitCount(live, alive, row, cols - 1, f);
      }
      assert Occurrences(RowFills(live, alive, row, cols), f) == Occurrences(before, f) + Occurrences(here, f) by {
        assert RowFills(live, alive, row, cols) == before + here;
        OccurrencesAppend(before, here, f);
      }
    }
  }

  /** A pass fills cell `f` once when it lies among its first `rows` rows and is in the pass's state. */
  lemma {:induction false} PassCount(width: nat, live: Grid, alive: bool, rows: nat, f: Fill)
    ensures Occurrences(Pass(width, live, alive, rows), f) ==
      if f.row < rows && f.col < width && Painted(live, alive, f) then 1 else 0
  {
    if rows > 0 {
      var before, here := Pass(width, live, alive, rows - 1), RowFills(live, alive, rows - 1, width);
      var painted := Painted(live, alive, f);
      calc {
        Occurrences(Pass(width, live, alive, rows), f);
        { assert Pass(width, live, alive, rows) == before + here; }
        Occurrences(before + here, f);
        { OccurrencesAppend(before, here, f); }
        Occurrences(before, f) + Occurrences(here, f);
        { PassCount(width, live, alive, rows - 1, f); RowCount(live, alive, rows - 1, width, f); }
        (if f.row < rows - 1 && f.col < width && painted then 1 else 0)
          + (if f.row == rows - 1 && f.col < width && painted then 1 else 0);
      }
    }
  }

  /**
   `drawCells` fills every cell of the grid exactly once, in the alive colour when its bit is
   set and in the dead colour otherwise, and fills nothing else.
   */
  lemma EachCellFilledOnce(width: nat, height: nat, live: Grid, f: Fill)
    requires f.color != GridColor
    ensures multiset(TwoPass(width, height, live))[f] ==
      if f.row < height && f.col < width && f.color == Shade(live(f.row, f.col)) then 1 else 0
  {
    PassCount(width, live, true, height, f);
    PassCount(width, live, false, height, f);
    OccurrencesAppend(Pass(width, live, true, height), Pass(width, live, false, height), f);
    OccurrencesAreMultiplicity(TwoPass(width, height, live), f);
  }

  /** The reference drawing fills cell `f` once when it lies among its first `rows` rows, in the cell's own colour. */
  lemma {:induction false} PaintCount(width: nat, live: Grid, rows: nat, f: Fill)
    ensures Occurrences(SinglePass(width, live, rows), f) ==
      if f.row < rows && f.col < width && OwnColor(live, f) then 1 else 0
  {
    if rows > 0 {
      var before, here := SinglePass(width, live, rows - 1), RowPaint(live, rows - 1, width);
      var own := OwnColor(live, f);
      assert Occurrences(before, f) == if f.row < rows - 1 && f.col < width && own then 1 else 0 by {
        PaintCount(width, live, rows - 1, f);
      }
      assert Occurrences(here, f) == if f.row == rows - 1 && f.col < width && own then 1 else 0 by {
        RowPaintCount(live, rows - 1, width, f);
      }
      assert Occurrences(SinglePass(width, live, rows), f) == Occurrences(before, f) + Occurrences(here, f) by {
        assert SinglePass(width, live, rows) == before + here;
        OccurrencesAppend(before, here, f);
      }
    }
  }

  lemma {:induction false} RowPaintCount(live: Grid, row: nat, cols: nat, f: Fill)
    ensures Occurrences(RowPaint(live, row, cols), f) ==
      if f.row == row && f.col < cols && OwnColor(live, f) then 1 else 0
  {
    if cols > 0 {
      var before, here := RowPaint(live, row, cols - 1), Paint(live, row, cols - 1);
      var own := OwnColor(live, f);
      assert Occurrences(before, f) == if f.row == row && f.col < cols - 1 && own then 1 else 0 by {
        RowPaintCount(live, row, cols - 1, f);
      }
      assert Occurrences(here, f) == if f.row == row && f.col == cols - 1 && own then 1 else 0 by {
        SingletonCount(Fill(Shade(live(row, cols - 1)), row, cols - 1), f);
      }
      assert Occurrences(RowPaint(live, row, cols), f) == Occurrences(before, f) + Occurrences(here, f) by {
        assert RowPaint(live, row, cols) == before + here;
        OccurrencesAppend(before, here, f);
      }
    }
  }

  /**
   The two passes together are a reordering of the single pass. Since fill rectangles of
   distinct cells are disjoint (`Geometry.CellRectsDisjoint`), the order of the fills should
   not matter to the picture; this lemma states only the reordering.
   */
  lemma TwoPassMatchesSinglePass(width: nat, height: nat, live: Grid)
    ensures multiset(TwoPass(width, height, live)) == multiset(SinglePass(width, live, height))
  {
    forall f ensures Occurrences(TwoPass(width, height, live), f) == Occurrences(SinglePass(width, live, height), f) {
      PassCount(width, live, true, height, f);
      PassCount(width, live, false, height, f);
      OccurrencesAppend(Pass(width, live, true, height), Pass(width, live, false, height), f);
      PaintCount(width, live, height, f);
    }
    SameOccurrences(TwoPass(width, height, live), SinglePass(width, live, height));
  }

  /**
   Drawn from the driver's byte view of a universe whose grid is a whole number of bytes,
   `drawCells` shows every cell in the colour of its state in the engine.
   */
  lemma DrawCellsShowsUniverse(u: Life.Universe, f: Fill)
    requires Life.Fits(u) && (u.width * u.height) % 8 == 0 && f.color != GridColor
    ensures multiset(TwoPass(u.width, u.height, Decode(u.width, Snapshot.View(u))))[f] ==
      if Life.InGrid(u, f.row, f.col) && f.color == Shade(Life.Alive(u, f.row, f.col)) then 1 else 0
  {
    var live := Decode(u.width, Snapshot.View(u));
    EachCellFilledOnce(u.width, u.height, live, f);
    if Life.InGrid(u, f.row, f.col) {
      Snapshot.ViewDecodes(u, f.row, f.col);
      assert live(f.row, f.col) == Life.Alive(u, f.row, f.col);
    }
  }

  /** Toggling cell `(5, 5)` of the page's all-dead 64 x 64 grid leaves exactly that cell alive. */
  lemma ToggleDeadGrid(u: Life.Universe)
    requires u.width == 64 && u.height == 64 && |u.cells| == 4096
    requires forall i :: 0 <= i < |u.cells| ==> !u.cells[i]
    ensures Life.ToggleCell(u, 5, 5).Some? && Life.Fits(Life.ToggleCell(u, 5, 5).value)
    ensures var v := Life.ToggleCell(u, 5, 5).value;
      forall r: U32.u32, c: U32.u32 :: Life.InGrid(v, r, c) ==> (Life.Alive(v, r, c) <==> r == 5 && c == 5)
  {
    LifeFacts.ToggleFlipsOnlyTarget(u, 5, 5);
    var v := Life.ToggleCell(u, 5, 5).value;
    forall r: U32.u32, c: U32.u32 | Life.InGrid(v, r, c) ensures Life.Alive(v, r, c) <==> r == 5 && c == 5 {
      LifeFacts.AliveIsBit(u, r, c);
    }
  }

  /**
   On the page's 64 x 64 grid with every cell dead, toggling cell `(5, 5)` and drawing fills
   that cell once in the alive colour, at pixel `(31, 31)`, and every other cell once in the
   dead colour.
   */
  lemma ToggleThenDraw(u: Life.Universe, f: Fill)
    requires u.width == 64 && u.height == 64 && |u.cells| == 4096
    requires forall i :: 0 <= i < |u.cells| ==> !u.cells[i]
    requires f.color != GridColor
    ensures Life.ToggleCell(u, 5, 5).Some?
    ensures var v := Life.ToggleCell(u, 5, 5).value;
      multiset(TwoPass(u.width, u.height, Decode(u.width, Snapshot.View(v))))[f] ==
        if f.row < 64 && f.col < 64 && f.color == Shade(f.row == 5 && f.col == 5) then 1 else 0
    ensures Geometry.CellRect(5, 5) == Geometry.Rect(31, 31, 5, 5)
  {
    ToggleDeadGrid(u);
    var v := Life.ToggleCell(u, 5, 5).value;
    OneLiveCellDrawn(v, f);
  }

  /** A grid whose only live cell is `(5, 5)` is drawn with that one cell in the alive colour. */
  lemma OneLiveCellDrawn(v: Life.Universe, f: Fill)
    requires Life.Fits(v) && v.width == 64 && v.height == 64 && f.color != GridColor
    requires forall r: U32.u32, c: U32.u32 :: Life.InGrid(v, r, c) ==> (Life.Alive(v, r, c) <==> r == 5 && c == 5)
    ensures multiset(TwoPass(v.width, v.height, Decode(v.width, Snapshot.View(v))))[f] ==
      if f.row < 64 && f.col < 64 && f.color == Shade(f.row == 5 && f.col == 5) then 1 else 0
  {
    DrawCellsShowsUniverse(v, f);
    if f.row < 64 && f.col < 64 {
      assert Life.InGrid(v, f.row, f.col);
      assert Life.Alive(v, f.row, f.col) <==> f.row == 5 && f.col == 5;
    }
  }

  // ---------------------------------------------------------------------------------
  // Grid lines.

  /**
   The driver's `drawGrid`: `width + 1` vertical lines spanning the canvas height, then
   `height + 1` horizontal lines spanning its width. Vertical line `i` runs along the left edge
   of the fill rectangles of column `i`, horizontal line `j` along the top edge of row `j`;
   the last of each runs along the far edge of the canvas.
   */
  method DrawGrid(width: nat, height: nat) returns (lines: seq<Line>)
    ensures |lines| == (width + 1) + (height + 1)
    ensures forall i :: 0 <= i <= width ==>
      lines[i].x0 == lines[i].x1 == i * Geometry.PITCH + 1 && lines[i].y0 == 0 && lines[i].y1 == Geometry.CanvasExtent(height)
    ensures forall i :: 0 <= i < width ==> lines[i].x0 == Geometry.CellRect(0, i).x
    ensures lines[width].x0 == Geometry.CanvasExtent(width)
    ensures forall k :: width < k < |lines| ==>
      var j := k - (width + 1);
      lines[k].y0 == lines[k].y1 == j * Geometry.PITCH + 1 && lines[k].x0 == 0 && lines[k].x1 == Geometry.CanvasExtent(width)
    ensures forall k :: width < k < |lines| - 1 ==> lines[k].y0 == Geometry.CellRect(k - (width + 1), 0).y
    ensures lines[width + 1 + height].y0 == Geometry.CanvasExtent(height)
  {
    lines := [];
    for i := 0 to width + 1
      invariant |lines| == i
      invariant forall k :: 0 <= k < i ==> lines[k] == Line(k * Geometry.PITCH + 1, 0, k * Geometry.PITCH + 1, Geometry.PITCH * height + 1)
    {
      lines := lines + [Line(i * Geometry.PITCH + 1, 0, i * Geometry.PITCH + 1, Geometry.PITCH * height + 1)];
    }
    for j := 0 to height + 1
      invariant |lines| == width + 1 + j
      invariant forall k :: 0 <= k <= width ==> lines[k] == Line(k * Geometry.PITCH + 1, 0, k * Geometry.PITCH + 1, Geometry.PITCH * height + 1)
      invariant forall k :: width < k < |lines| ==>
        lines[k] == Line(0, (k - (width + 1)) * Geometry.PITCH + 1, Geometry.PITCH * width + 1, (k - (width + 1)) * Geometry.PITCH + 1)
    {
      lines := lines + [Line(0, j * Geometry.PITCH + 1, Geometry.PITCH * width + 1, j * Geometry.PITCH + 1)];
    }
  }
}

=== FILE: snapshot.dfy ===
/**
 The engine's grid as the driver sees it: the bitset packed eight cells per byte, least
 significant bit first, read back with the driver's `bitIsSet` and `getIndex`.
 */
module Snapshot {
  import opened U32
  import Life
  import LifeFacts

  // ---------------------------------------------------------------------------------
  // Packing (the engine side).

  function Flag(b: bool, mask: bv8): bv8 {
    if b then mask else 0
  }

  /** Eight flags as one byte, the first flag in the least significant bit. */
  function Byte(b0: bool, b1: bool, b2: bool, b3: bool, b4: bool, b5: bool, b6: bool, b7: bool): bv8 {
    Flag(b0, 1) | Flag(b1, 2) | Flag(b2, 4) | Flag(b3, 8) | Flag(b4, 16) | Flag(b5, 32) | Flag(b6, 64) | Flag(b7, 128)
  }

  /** Byte `j` of the packed grid holds bits `8 * j` to `8 * j + 7`. */
  function PackByte(cells: seq<bool>, j: nat): bv8 {
    var i := 8 * j;
    Byte(Life.BitAt(cells, i), Life.BitAt(cells, i + 1), Life.BitAt(cells, i + 2), Life.BitAt(cells, i + 3),
         Life.BitAt(cells, i + 4), Life.BitAt(cells, i + 5), Life.BitAt(cells, i + 6), Life.BitAt(cells, i + 7))
  }

  /** The bitset's memory viewed as bytes: `ceil(|cells| / 8)` bytes, padding bits zero. */
  function Pack(cells: seq<bool>): (bytes: seq<bv8>)
    ensures |bytes| == (|cells| + 7) / 8
  {
    seq((|cells| + 7) / 8, j requires 0 <= j => PackByte(cells, j))
  }

  /** The engine's `cells()` / `get_cells()`: the packed bitset. */
  function GetCells(u: Life.Universe): (bytes: seq<bv8>)
    ensures |bytes| == (|u.cells| + 7) / 8
  {
    Pack(u.cells)
  }

  // ---------------------------------------------------------------------------------
  // Decoding (the driver side).

  /**
   The driver's `bitIsSet`: byte `n / 8`, mask `1 << (n % 8)`. Past the end of the array the
   byte reads as `undefined`, whose bitwise and with the mask is zero, so the bit is clear.
   */
  function BitIsSet(n: nat, arr: seq<bv8>): bool {
    var byte := n / 8;
    var mask: bv8 := 1 << (n % 8);
    if byte < |arr| then arr[byte] & mask == mask else false
  }

  /** `bitIsSet` reads bit `n % 8` of byte `n / 8`, and depends on nothing else. */
  lemma BitIsSetReadsOneBit(n: nat, arr: seq<bv8>)
    ensures BitIsSet(n, arr) <==> n / 8 < |arr| && (arr[n / 8] >> (n % 8)) & 1 == 1
  {
    if n / 8 < |arr| {
      ShiftTest(arr[n / 8], n % 8);
    }
  }

  /** Testing against a one-bit mask is testing the shifted-down bit. */
  lemma ShiftTest(b: bv8, k: nat)
    requires k < 8
    ensures (b & (1 << k) == 1 << k) <==> (b >> k) & 1 == 1
  {
    if k == 0 {} else if k == 1 {} else if k == 2 {} else if k == 3 {}
    else if k == 4 {} else if k == 5 {} else if k == 6 {} else {}
  }

  /** The driver's `getIndex`: plain row-major arithmetic on JavaScript numbers. */
  function JsGetIndex(width: nat, row: nat, column: nat): nat {
    row * width + column
  }

  /** Bit `k` of a packed byte is the `k`-th flag. */
  lemma ByteBit(b0: bool, b1: bool, b2: bool, b3: bool, b4: bool, b5: bool, b6: bool, b7: bool, k: nat)
    requires k < 8
    ensures var b := Byte(b0, b1, b2, b3, b4, b5, b6, b7);
      (b & (1 << k) == 1 << k) <==> [b0, b1, b2, b3, b4, b5, b6, b7][k]
  {
    if k == 0 {} else if k == 1 {} else if k == 2 {} else if k == 3 {}
    else if k == 4 {} else if k == 5 {} else if k == 6 {} else {}
  }

  /** Bit `k` of packed byte `j` is bit `8 * j + k` of the bitset. */
  lemma ByteDecodes(cells: seq<bool>, j: nat, k: nat)
    requires k < 8
    ensures (PackByte(cells, j) & (1 << k) == 1 << k) == Life.BitAt(cells, 8 * j + k)
  {
    var i := 8 * j;
    ByteBit(Life.BitAt(cells, i), Life.BitAt(cells, i + 1), Life.BitAt(cells, i + 2), Life.BitAt(cells, i + 3),
            Life.BitAt(cells, i + 4), Life.BitAt(cells, i + 5), Life.BitAt(cells, i + 6), Life.BitAt(cells, i + 7), k);
  }

  /** Decoding the packed bitset at any position gives back the bit there (zero past the end). */
  lemma PackRoundTrip(cells: seq<bool>, n: nat)
    ensures BitIsSet(n, Pack(cells)) == Life.BitAt(cells, n)
  {
    var j, k := n / 8, n % 8;
    if j < |Pack(cells)| {
      assert Pack(cells)[j] == PackByte(cells, j);
      ByteDecodes(cells, j, k);
    } else {
      assert !Life.BitAt(cells, n);
    }
  }

  /** The driver's index agrees with the engine's on every grid cell. */
  lemma JsIndexAgrees(u: Life.Universe, row: u32, col: u32)
    requires Life.Fits(u) && Life.InGrid(u, row, col)
    ensures JsGetIndex(u.width, row, col) == Life.GetIndex(u.width, row, col)
  {
    LifeFacts.IndexInRange(u.width, u.height, row, col);
  }

  /** The driver's byte view: `width * height / 8` bytes, the division truncating. */
  function View(u: Life.Universe): (view: seq<bv8>)
    requires Life.Fits(u)
    ensures |view| == (u.width * u.height) / 8
  {
    Pack(u.cells)[..(u.width * u.height) / 8]
  }

  /** When the grid is a whole number of bytes, the view decodes every cell correctly. */
  lemma ViewDecodes(u: Life.Universe, row: u32, col: u32)
    requires Life.Fits(u) && (u.width * u.height) % 8 == 0 && Life.InGrid(u, row, col)
    ensures BitIsSet(JsGetIndex(u.width, row, col), View(u)) == Life.Alive(u, row, col)
  {
    var n := JsGetIndex(u.width, row, col);
    LifeFacts.IndexInRange(u.width, u.height, row, col);
    PackRoundTrip(u.cells, n);
    assert n / 8 < |View(u)|;
  }

  /** Otherwise the cells of the trailing partial byte fall outside the view and read as dead. */
  lemma ViewTailReadsDead(u: Life.Universe, row: u32, col: u32)
    requires Life.Fits(u) && Life.InGrid(u, row, col)
    requires JsGetIndex(u.width, row, col) >= (u.width * u.height) / 8 * 8
    ensures !BitIsSet(JsGetIndex(u.width, row, col), View(u))
  {
  }
}

=== FILE: u32.dfy ===
/** Unsigned 32-bit machine integers as the engine uses them (`u32`, and `usize` on wasm32). */
module U32 {

  const MODULUS: int := 0x1_0000_0000

  type u32 = x: int | 0 <= x < MODULUS

  /** Release-build arithmetic: the exact result reduced modulo 2^32. */
  function Wrap(x: int): (r: u32)
    ensures 0 <= x < MODULUS ==> r == x
    ensures -MODULUS <= x < 0 ==> r == x + MODULUS
    ensures MODULUS <= x < 2 * MODULUS ==> r == x - MODULUS
  {
    x % MODULUS
  }
}

=== FILE: universe.dfy ===
/**
 The Game of Life engine: a `width x height` toroidal grid whose cells are the bits of a
 fixed-size bitset, flattened row-major. Every operation is a pure function (or a method
 whose loops mirror the engine's) from the old universe to the new one; an operation that
 would panic on an out-of-bounds bitset access returns `None`.
 */
module Life {
  import opened Wrappers
  import opened U32
  import Arith

  /** The bits of `cells` are the bitset; its length is fixed when the universe is created. */
  datatype Universe = Universe(width: u32, height: u32, cells: seq<bool>)

  /** The grid fits inside the bitset, and the bitset is addressable by a 32-bit index. */
  predicate Fits(u: Universe) {
    u.width * u.height <= |u.cells| < MODULUS
  }

  predicate InGrid(u: Universe, row: int, col: int) {
    0 <= row < u.height && 0 <= col < u.width
  }

  // ---------------------------------------------------------------------------------
  // The bitset primitives the engine relies on.

  /** Indexing a bitset reads `false` past its end. */
  function BitAt(bits: seq<bool>, i: int): bool {
    0 <= i < |bits| && bits[i]
  }

  /** Sets every listed bit in turn; the first index past the end panics. */
  function SetAll(bits: seq<bool>, idxs: seq<int>): (r: Option<seq<bool>>)
    ensures r.Some? <==> forall k :: 0 <= k < |idxs| ==> 0 <= idxs[k] < |bits|
    ensures r.Some? ==> |r.value| == |bits|
    ensures r.Some? ==> forall i :: 0 <= i < |bits| ==> (r.value[i] <==> bits[i] || i in idxs)
    decreases |idxs|
  {
    if |idxs| == 0 then Some(bits)
    else if 0 <= idxs[0] < |bits| then SetAll(bits[idxs[0] := true], idxs[1..])
    else None
  }

  // ---------------------------------------------------------------------------------
  // Indexing and neighbours.

  /** The flat index of `(row, column)`, computed in wrapping 32-bit arithmetic. */
  function GetIndex(width: u32, row: u32, column: u32): u32 {
    Wrap(row * width + column)
  }

  /** Whether cell `(row, column)` is alive. */
  function Alive(u: Universe, row: u32, column: u32): bool {
    BitAt(u.cells, GetIndex(u.width, row, column))
  }

  /** One term of the neighbour sum: the offset `(dRow, dCol)` is added modulo the dimensions. */
  function NeighborBit(u: Universe, row: u32, column: u32, dRow: u32, dCol: u32): nat
    requires u.height > 0 && u.width > 0
  {
    if dRow != 0 || dCol != 0 then
      var nRow: u32 := Wrap(row + dRow) % u.height;
      var nCol: u32 := Wrap(column + dCol) % u.width;
      if BitAt(u.cells, GetIndex(u.width, nRow, nCol)) then 1 else 0
    else 0
  }

  function NeighborRow(u: Universe, row: u32, column: u32, dRow: u32): nat
    requires u.height > 0 && u.width > 0
  {
    NeighborBit(u, row, column, dRow, u.width - 1)
    + NeighborBit(u, row, column, dRow, 0)
    + NeighborBit(u, row, column, dRow, 1)
  }

  /**
   The engine's neighbour count: offsets `height - 1, 0, 1` for rows and `width - 1, 0, 1`
   for columns, skipping the pair that is zero in both. At most eight cells are counted.
   */
  function LiveNeighborCount(u: Universe, row: u32, column: u32): (n: nat)
    requires u.height > 0 && u.width > 0
    ensures n <= 8
  {
    NeighborRow(u, row, column, u.height - 1)
    + NeighborRow(u, row, column, 0)
    + NeighborRow(u, row, column, 1)
  }

  // ---------------------------------------------------------------------------------
  // The generation step.

  /** The transition rule as the engine writes it, one match arm per line. */
  function Rule(cell: bool, liveNeighbors: nat): (next: bool)
    ensures next <==> (cell && (liveNeighbors == 2 || liveNeighbors == 3)) || (!cell && liveNeighbors == 3)
  {
    if cell && liveNeighbors < 2 then false
    else if cell && (liveNeighbors == 2 || liveNeighbors == 3) then true
    else if cell && liveNeighbors > 3 then false
    else if !cell && liveNeighbors == 3 then true
    else cell
  }

  /** The next state of bit `i`: grid cells follow the rule, bits past the grid are copied. */
  function NextCell(u: Universe, i: nat): bool
    requires Fits(u) && i < |u.cells|
  {
    if i < u.width * u.height then
      Arith.Unflatten(i, u.width, u.height);
      Rule(u.cells[i], LiveNeighborCount(u, i / u.width, i % u.width))
    else u.cells[i]
  }

  /** The next generation, computed from the old generation only. */
  function Step(u: Universe): Universe
    requires Fits(u)
  {
    Universe(u.width, u.height, seq(|u.cells|, i requires 0 <= i < |u.cells| => NextCell(u, i)))
  }

  /** At cell `(row, col)` the loop writes flat index `row * width + col`, which is in the grid. */
  lemma TickStep(u: Universe, row: u32, col: u32)
    requires Fits(u) && row < u.height && col < u.width
    ensures GetIndex(u.width, row, col) == row * u.width + col < u.width * u.height
    ensures NextCell(u, row * u.width + col) == Rule(u.cells[row * u.width + col], LiveNeighborCount(u, row, col))
  {
    Arith.FlatBound(row, col, u.width, u.height);
    Arith.FlatDivMod(row, col, u.width);
  }

  /** Writing the target value at the frontier moves the frontier one step. */
  lemma WriteExtends(s: seq<bool>, target: seq<bool>, orig: seq<bool>, done: nat, v: bool)
    requires |s| == |target| == |orig| && done < |s|
    requires s[..done] == target[..done] && s[done..] == orig[done..] && target[done] == v
    ensures s[done := v][..done + 1] == target[..done + 1]
    ensures s[done := v][done + 1..] == orig[done + 1..]
  {
    assert s[done := v][..done + 1] == s[..done] + [v];
    assert target[..done + 1] == target[..done] + [target[done]];
  }

  /**
   A row-major pass over the grid has written the next generation into `cells` below flat
   index `done` and still holds the current generation from `done` on.
   */
  ghost predicate Frontier(u: Universe, cells: seq<bool>, done: nat)
    requires Fits(u)
  {
    && |cells| == |u.cells|
    && done <= |cells|
    && cells[..done] == Step(u).cells[..done]
    && cells[done..] == u.cells[done..]
  }

  /** The flat index where row `row` starts. */
  function RowStart(u: Universe, row: nat): (start: nat)
    requires Fits(u) && row <= u.height
    ensures start == row * u.width <= u.width * u.height
  {
    Arith.MulMonotone(row, u.height, u.width);
    row * u.width
  }

  /** Writing cell `(row, col)` of the next generation moves the frontier of the row-major pass by one. */
  lemma TickCellExtends(u: Universe, next: seq<bool>, row: u32, col: u32, idx: nat)
    requires Fits(u) && row < u.height && col < u.width
    requires idx == row * u.width + col < u.width * u.height
    requires Frontier(u, next, idx)
    ensures GetIndex(u.width, row, col) == idx
    ensures Frontier(u, next[idx := Rule(BitAt(u.cells, idx), LiveNeighborCount(u, row, col))], idx + 1)
  {
    TickStep(u, row, col);
    WriteExtends(next, Step(u).cells, u.cells, idx, Rule(BitAt(u.cells, idx), LiveNeighborCount(u, row, col)));
  }

  /** The inner loop of `tick`: writes the next state of every cell of one row. */
  method TickRow(u: Universe, cells: seq<bool>, row: u32) returns (next: seq<bool>)
    requires Fits(u) && row < u.height
    requires Frontier(u, cells, RowStart(u, row))
    ensures Frontier(u, next, RowStart(u, row + 1))
  {
    ghost var start := RowStart(u, row);
    Arith.NextRow(row, u.width);
    assert RowStart(u, row + 1) == start + u.width;
    next := cells;
    ghost var done := start;
    var col: u32 := 0;
    while col < u.width
      invariant col <= u.width && done == start + col
      invariant Frontier(u, next, done)
    {
      Arith.FlatBound(row, col, u.width, u.height);
      TickCellExtends(u, next, row, col, done);
      var idx := GetIndex(u.width, row, col);
      var cell := BitAt(u.cells, idx);
      var liveNeighbors := LiveNeighborCount(u, row, col);
      next := next[idx := Rule(cell, liveNeighbors)];
      col := col + 1;
      done := done + 1;
    }
  }

  /** Once the frontier has passed the whole bitset, the pass has produced the next generation. */
  lemma FrontierDone(u: Universe, cells: seq<bool>)
    requires Fits(u) && Frontier(u, cells, |u.cells|)
    ensures cells == Step(u).cells
  {
    assert cells == cells[..|u.cells|];
  }

  /** Past the grid the next generation keeps the current bits, so the frontier can jump to the end. */
  lemma FrontierRest(u: Universe, cells: seq<bool>, done: nat)
    requires Fits(u) && done == u.width * u.height && Frontier(u, cells, done)
    ensures Frontier(u, cells, |u.cells|)
  {
    forall i | 0 <= i < |u.cells| ensures cells[i] == Step(u).cells[i] {
      if i < done {
        assert cells[..done][i] == Step(u).cells[..done][i];
      } else {
        assert cells[done..][i - done] == u.cells[done..][i - done];
      }
    }
    assert cells[..|u.cells|] == Step(u).cells[..|u.cells|];
  }

  /** The engine's `tick`: one pass over rows and columns writing into a copy of the bitset. */
  method Tick(u: Universe) returns (next: Universe)
    requires Fits(u)
    ensures next == Step(u)
  {
    var cells := u.cells;
    var row: u32 := 0;
    assert Frontier(u, cells, RowStart(u, 0));
    while row < u.height
      invariant row <= u.height
      invariant Frontier(u, cells, RowStart(u, row))
    {
      cells := TickRow(u, cells, row);
      row := row + 1;
    }
    FrontierRest(u, cells, RowStart(u, row));
    FrontierDone(u, cells);
    next := Universe(u.width, u.height, cells);
  }

  // ---------------------------------------------------------------------------------
  // Edits.

  /** Flips the bit of `(row, column)`; an index past the bitset panics. */
  function ToggleCell(u: Universe, row: u32, column: u32): (r: Option<Universe>)
    ensures r.Some? <==> GetIndex(u.width, row, column) < |u.cells|
    ensures r.Some? ==> r.value.width == u.width && r.value.height == u.height
    ensures r.Some? ==> |r.value.cells| == |u.cells|
  {
    var idx := GetIndex(u.width, row, column);
    if idx < |u.cells| then Some(u.(cells := u.cells[idx := !u.cells[idx]])) else None
  }

  /** The five glider indices, in the engine's order, with 32-bit wrapping on `row - 1` etc. */
  function GliderIndices(width: u32, row: u32, column: u32): seq<int> {
    [ GetIndex(width, row, column),
      GetIndex(width, Wrap(row - 1), Wrap(column - 1)),
      GetIndex(width, Wrap(row - 1), Wrap(column + 1)),
      GetIndex(width, row, Wrap(column + 1)),
      GetIndex(width, Wrap(row + 1), column) ]
  }

  /** Sets the glider footprint alive; panics when one of its indices is past the bitset. */
  function SpawnGlider(u: Universe, row: u32, column: u32): (r: Option<Universe>)
    ensures r.Some? ==> r.value.width == u.width && r.value.height == u.height
  {
    match SetAll(u.cells, GliderIndices(u.width, row, column))
    case Some(cells) => Some(u.(cells := cells))
    case None => None
  }

  /** The indices of `(row + i, column)` for `i` in `0..3`, with `row + i` wrapping. */
  function PulsarIndices(width: u32, row: u32, column: u32): seq<int> {
    [GetIndex(width, Wrap(row + 0), column), GetIndex(width, Wrap(row + 1), column), GetIndex(width, Wrap(row + 2), column)]
  }

  /** Sets the pulsar footprint alive; panics when one of its indices is past the bitset. */
  function SpawnPulsar(u: Universe, row: u32, column: u32): (r: Option<Universe>)
    ensures r.Some? ==> r.value.width == u.width && r.value.height == u.height
  {
    match SetAll(u.cells, PulsarIndices(u.width, row, column))
    case Some(cells) => Some(u.(cells := cells))
    case None => None
  }

  function CellIndices(width: u32, cells: seq<(u32, u32)>): (idxs: seq<int>)
    ensures |idxs| == |cells|
  {
    seq(|cells|, k requires 0 <= k < |cells| => GetIndex(width, cells[k].0, cells[k].1))
  }

  /** Sets every listed `(row, column)` alive; panics when one index is past the bitset. */
  function SetCells(u: Universe, cells: seq<(u32, u32)>): (r: Option<Universe>)
    ensures r.Some? ==> r.value.width == u.width && r.value.height == u.height
  {
    match SetAll(u.cells, CellIndices(u.width, cells))
    case Some(bits) => Some(u.(cells := bits))
    case None => None
  }

  /** Clears every bit of the bitset, whatever the dimensions. */
  function KillAll(u: Universe): (r: Universe)
    ensures r.width == u.width && r.height == u.height && |r.cells| == |u.cells|
    ensures forall i :: 0 <= i < |r.cells| ==> !r.cells[i]
  {
    u.(cells := seq(|u.cells|, _ => false))
  }

  /** Clears every grid cell, row by row; bits past the grid keep their value. */
  method ResetCells(u: Universe) returns (r: Universe)
    requires Fits(u)
    ensures r.width == u.width && r.height == u.height && |r.cells| == |u.cells|
    ensures forall i :: 0 <= i < u.width * u.height ==> !r.cells[i]
    ensures forall i :: u.width * u.height <= i < |u.cells| ==> r.cells[i] == u.cells[i]
  {
    var cells := u.cells;
    ghost var done := 0;  // cells already cleared: i * width + j
    var i: u32 := 0;
    while i < u.height
      invariant i <= u.height && done == i * u.width <= u.width * u.height
      invariant |cells| == |u.cells|
      invariant forall k :: 0 <= k < done ==> !cells[k]
      invariant forall k :: done <= k < |cells| ==> cells[k] == u.cells[k]
    {
      var j: u32 := 0;
      while j < u.width
        invariant j <= u.width && done == i * u.width + j <= u.width * u.height
        invariant |cells| == |u.cells|
        invariant forall k :: 0 <= k < done ==> !cells[k]
        invariant forall k :: done <= k < |cells| ==> cells[k] == u.cells[k]
      {
        Arith.FlatBound(i, j, u.width, u.height);
        var idx := GetIndex(u.width, i, j);
        cells := cells[idx := false];
        j := j + 1;
        done := done + 1;
      }
      Arith.NextRow(i, u.width);
      Arith.MulMonotone(i + 1, u.height, u.width);
      i := i + 1;
    }
    r := u.(cells := cells);
  }

  /** Changes the width and clears the grid; the bitset is not resized. */
  method SetWidth(u: Universe, width: u32) returns (r: Universe)
    requires Fits(u.(width := width))
    ensures r.width == width && r.height == u.height && |r.cells| == |u.cells|
    ensures forall row, col :: InGrid(r, row, col) ==> !Alive(r, row, col)
  {
    r := ResetCells(u.(width := width));
    forall row, col | InGrid(r, row, col) ensures !Alive(r, row, col) {
      Arith.FlatBound(row, col, r.width, r.height);
    }
  }

  /** Changes the height and clears the grid; the bitset is not resized. */
  method SetHeight(u: Universe, height: u32) returns (r: Universe)
    requires Fits(u.(height := height))
    ensures r.width == u.width && r.height == height && |r.cells| == |u.cells|
    ensures forall row, col :: InGrid(r, row, col) ==> !Alive(r, row, col)
  {
    r := ResetCells(u.(height := height));
    forall row, col | InGrid(r, row, col) ensures !Alive(r, row, col) {
      Arith.FlatBound(row, col, r.width, r.height);
    }
  }

  /** The fixed 64 x 64 seed; the five live indices are written with `height` as the engine does. */
  function New(): Universe {
    var width: u32 := 64;
    var height: u32 := 64;
    var size := width * height;
    Universe(width, height, seq(size, i =>
      i == 3 || i == 1 + height || i == 3 + height || i == 2 + height * 2 || i == 3 + height * 2))
  }
}

=== FILE: wrappers.dfy ===
/** Failure-compatible wrapper used for operations of the engine that can panic. */
module Wrappers {

  /** `None` stands for a Rust panic (an out-of-bounds bitset access); `Some` carries the result. */
  datatype Option<+T> = None | Some(value: T)
}
